=== FILE: README.md ===
# WebAuthn scan hooks and chart tick window, in Dafny

This project models the three pieces of sequential logic in the browser hooks
of the Nexus dashboard's asset bundle.

1. **`WebAuthnUtils`**: the base64url helpers that turn WebAuthn binary data
   into text and back. They appear twice, identically, at
   `assets/js/hooks/webauthn.js:15-39` and `assets/js/app.js:28-52`, and are
   modelled once (`webauthn_utils.dfy`). Encoding uses the alphabet of
   section 5 of RFC 4648 and omits padding as section 3.2 of RFC 4648
   permits. The browser's `btoa` and `atob` are modelled as pure functions
   (`base64.dfy`). `btoa` is the padded encoding of section 4 of RFC 4648.
   `atob` is the WHATWG Infra "forgiving-base64 decode".
2. **The press-and-hold WebAuthn scan.** There are two variants, each a pure
   step function over an immutable hook record.
   - `WebAuthnHook` (`webauthn_hook.dfy`) models `assets/js/hooks/webauthn.js`.
     It has a retry cap of 2 and a cooldown after each early release.
   - `AppWebAuthnHook` (`app_webauthn_hook.dfy`) models the earlier copy that
     `assets/js/app.js` registers with its LiveSocket. It has no cap and no
     cooldown.

   Both run in one single-threaded event loop (`scan_events.dfy`). The
   events are pointer down, pointer up or leave, an interval tick, cooldown
   expiry, ceremony settlement and `destroyed`. A step returns the next state,
   the events pushed to the server, and the credential-creation requests
   handed to the platform. The end of `finishScan` is the same in both files
   apart from the `resetVisuals()` call in the `catch` of
   `assets/js/hooks/webauthn.js:275`, which is presentation (see "Left
   out"), and is modelled once (`ceremony.dfy`). `hook_variants.dfy` relates the
   two variants.
3. **`EChartsHook`** (`echarts_hook.dfy`): the candlestick chart's bounded
   tick window. It models how `initChart` projects the initial rows and how
   `appendTick` keeps parallel label and candle sequences at most
   max(100, number of initial rows) long: it drops one oldest entry per push
   once past 100, so a chart built from more than 100 rows keeps its size
   and never shrinks back to 100. It
   also models the shape of the `calculateMA` series, the `new-tick` pair
   filter, the re-initialisation guard of `updated`, and the callbacks that
   `ensureECharts` runs at once or when one of its injected scripts loads,
   including the case where `window.echarts`, which is page-global, is
   defined by some other script first.

Modelling choices:

- Timers are explicit "armed" flags, not durations. A tick with no armed
  interval is not deliverable, and neither is a cooldown expiry with no armed
  timeout. Such an event leaves the hook unchanged, and so does a pointer
  event after `destroyed` or a settlement with no ceremony in flight.
- `navigator.credentials.create` is a foreign asynchronous call. The model
  records the request it is given. Its settled promise comes back later as a
  nondeterministic `Created` or `Rejected` event. `pendingCeremonies` counts
  the calls in flight. It is the model's own bookkeeping and has no
  counterpart field in the source.
- The `data-challenge` attribute and the random bytes used for the user
  handle are inputs to each interval tick (`Context`). An empty attribute is
  falsy in the source, so it counts as missing.
- A challenge that `atob` rejects throws inside the `try`. That is reported
  as `biometric_reset {error}` (`InvalidChallenge`).
- Because `atob` is forgiving, `Base64UrlToBuffer` also accepts `+` and `/`,
  and input that already carries its `=` padding. The padding is computed
  from the raw length, before `atob` strips ASCII whitespace, so input with
  whitespace decodes only when the stripped, padded text still has a valid
  length. A length of 1 mod 4 is always rejected, whatever the characters.

Two details of the code worth noting:

- `progress` is not reset on release or on completion. `stopScan` resets only
  the `--scan-p` CSS variable. `progress` keeps its value until the next
  `startScan` sets it to 0 (`assets/js/hooks/webauthn.js:97`, `:160`).
  `WebAuthnHook.ReleaseDuringScanAborts` states this.
- A missing challenge pushes nothing (`assets/js/hooks/webauthn.js:237-240`).
  It does not notify the server with an error.

## Model

| member | source | states |
|---|---|---|
| Base64.EncodeGroups | assets/js/hooks/webauthn.js:23 | the unpadded body of `btoa` has ceil(4n/3) characters, all from the alphabet of section 4 of RFC 4648 |
| Base64.Btoa | assets/js/hooks/webauthn.js:23 | `btoa` output is 4·ceil(n/3) characters long, a multiple of 4, and uses only the alphabet and `=` |
| Base64.GroupsRoundTrip | assets/js/hooks/webauthn.js:23-32 | decoding the groups of any byte string, 3 bytes per 4 characters, returns exactly those bytes |
| Base64.BtoaAtobRoundTrip | assets/js/hooks/webauthn.js:23-32 | `atob(btoa(b)) == b` for every byte string |
| WebAuthnUtils.ArrayBufferToBase64Url | assets/js/hooks/webauthn.js:16-27 | the encoding is unpadded base64url: ceil(4n/3) characters, all from `A-Z a-z 0-9 - _`, so it never holds `+`, `/` or `=` |
| WebAuthnUtils.StripBtoaPadding | assets/js/app.js:36-39 | after the alphabet swap, removing every `=` removes exactly `btoa`'s padding and nothing else |
| WebAuthnUtils.PadEnd | assets/js/hooks/webauthn.js:30-31 | `padLen` is 0, 3, 2 or 1 for lengths 0, 1, 2, 3 mod 4; the padded string is a multiple of 4 long, starts with the input and continues with `=` only |
| WebAuthnUtils.AtobOfPadEnd | assets/js/hooks/webauthn.js:30-32 | after padding, `atob` sees the unpadded characters again; it rejects them exactly when the length is 1 mod 4 or a character is outside the alphabet |
| WebAuthnUtils.PadEndRestoresBtoa | assets/js/app.js:43-44 | the padding restored for decoding is exactly the padding `btoa` wrote before the encoder stripped it |
| WebAuthnUtils.UrlAlphabetRoundTrip | assets/js/app.js:37-42 | swapping `-`/`_` back undoes the encoder's `+`/`/` swap on any standard base64 text |
| WebAuthnUtils.RoundTrip | assets/js/hooks/webauthn.js:16-38 | decoding the encoding of any byte sequence succeeds and returns the same bytes |
| WebAuthnUtils.DecodeAcceptance | assets/js/hooks/webauthn.js:28-38 | an unpadded, whitespace-free string decodes if and only if its length is not 1 mod 4 and its characters come from either alphabet; it then yields floor(3·len/4) bytes |
| Base64.AtobRejectsTriplePad | assets/js/hooks/webauthn.js:32 | `atob` throws on any string ending in three `=`, whitespace anywhere included: it drops at most two |
| WebAuthnUtils.RejectsOneModFour | assets/js/app.js:42-45 | any string of length 1 mod 4, whatever its characters, including `=` and whitespace, is rejected: padding adds three `=` and `atob` throws |
| Ceremony.BeginCeremony | assets/js/hooks/webauthn.js:235-264 | a missing or empty challenge means no request; an undecodable one fails with `InvalidChallenge`; otherwise the request carries the decoded challenge, the random bytes as user id, ES256 then RS256, and a 60000 ms timeout |
| Ceremony.Settle | assets/js/hooks/webauthn.js:266-277 | a created credential yields `biometric_complete` whose two fields are exactly the encoder's output for the attestation object and the client data, hence unpadded base64url text that decodes back to those bytes; a rejection yields `biometric_reset {error}` with its message |
| WebAuthnHook.Mount | assets/js/hooks/webauthn.js:59-66 | the mounted hook is idle, at progress 0, with no retries used, the cooldown off and no ceremony in flight, and satisfies the invariant |
| WebAuthnHook.StartScan | assets/js/hooks/webauthn.js:80-132 | a start happens if and only if the hook is not scanning, not cooling down and below 2 retries; it then sets progress 0 and arms the interval and pushes exactly `biometric_start`; otherwise nothing changes and nothing is pushed |
| WebAuthnHook.StopScan | assets/js/hooks/webauthn.js:134-169 | unless scanning short of 100 it does nothing; otherwise it stops, counts one retry, starts the cooldown, pushes `biometric_reset {retry_count}` with the new count and leaves `progress` as it was |
| WebAuthnHook.FinishScan | assets/js/hooks/webauthn.js:205-277 | finishing stops the scan and interval without touching retries or cooldown; a missing challenge neither pushes nor requests, a bad one pushes the error, a good one issues exactly one request; the ceremonies in flight grow by the requests issued and nothing else changes |
| WebAuthnHook.StepPreservesValid | assets/js/hooks/webauthn.js:80-207 | every event keeps progress even and within 0..100, `retryCount <= 2`, and a running scan below 100 with retries left and no cooldown; while mounted, each timer is armed exactly when its flag is set, and after `destroyed` neither is armed |
| ScanEvents.RunPreserves | assets/js/hooks/webauthn.js:58-207 | a property every single handler keeps holds after any sequence of events delivered to the hook |
| WebAuthnHook.RunPreservesValid | assets/js/hooks/webauthn.js:58-207 | the invariant holds after any sequence of events |
| WebAuthnHook.AfterDestroyedOnlySettlements | assets/js/hooks/webauthn.js:200-203 | after `destroyed`, any sequence of events requests no ceremony and pushes only the reports of ceremonies already in flight |
| WebAuthnHook.Bounds | assets/js/hooks/webauthn.js:61-64 | from mounting on, after any events, `0 <= progress <= 100` and `retryCount <= maxRetries` |
| WebAuthnHook.ReleaseDuringScanAborts | assets/js/hooks/webauthn.js:135-169 | releasing a running scan always aborts, so the `progress >= 100` return is unreachable; it counts a retry, still at most 2, starts the cooldown, reports the new count and keeps `progress` |
| WebAuthnHook.RetryCountChangesOnlyOnAbort | assets/js/hooks/webauthn.js:144 | `retryCount` changes only on pointer up or leave, by one, with exactly one report of the new value; ticks, finishing and settling never change it |
| WebAuthnHook.RetryCountMatchesResets | assets/js/hooks/webauthn.js:144-169 | over any run, `retryCount` grows by exactly the number of `biometric_reset {retry_count}` events pushed |
| WebAuthnHook.PressStartsScan | assets/js/hooks/webauthn.js:69-97 | a touch or primary-button press pushes `biometric_start` if and only if the start guard is open; otherwise the hook is unchanged |
| WebAuthnHook.ExhaustedRetriesArePermanent | assets/js/hooks/webauthn.js:83-87 | once 2 retries are used, no sequence of events starts a scan or pushes `biometric_start` again |
| WebAuthnHook.CooldownExpiryOnlyClearsCooldown | assets/js/hooks/webauthn.js:165-167 | the cooldown timeout clears `cooldownActive` and changes nothing else: no push, no request, every other field kept |
| WebAuthnHook.CooldownDelaysStart | assets/js/hooks/webauthn.js:162-167 | during the cooldown a press is ignored; after the expiry the same press starts a scan |
| WebAuthnHook.ProgressMonotoneWhileScanning | assets/js/hooks/webauthn.js:121-131 | while a scan keeps running, `progress` never decreases and moves only on ticks |
| WebAuthnHook.TicksAdvance | assets/js/hooks/webauthn.js:121-130 | below 100, n ticks add exactly 2n to `progress` and push and request nothing |
| WebAuthnHook.FiftyTicksFinish | assets/js/hooks/webauthn.js:96-131 | after a start, 49 ticks leave the scan running at 98; the 50th reaches 100, clears scanning and the interval, keeps the retry count and finishes |
| WebAuthnHook.SettlingKeepsPolicy | assets/js/hooks/webauthn.js:266-277 | a settled ceremony pushes its one report and leaves `retryCount` and the cooldown unchanged |
| AppWebAuthnHook.Mount | assets/js/app.js:57-60 | the mounted hook is idle, at progress 0, with no ceremony in flight, and satisfies the invariant |
| AppWebAuthnHook.StartScan | assets/js/app.js:74-100 | the only refusal is an already running scan; otherwise progress is 0, the interval is armed and exactly `biometric_start` is pushed |
| AppWebAuthnHook.StopScan | assets/js/app.js:102-118 | not scanning means nothing changes; otherwise the scan and interval stop, and `biometric_reset {retry_count: 1}` is pushed if and only if progress was below 100 |
| AppWebAuthnHook.FinishScan | assets/js/app.js:124-169 | finishing clears scanning and the interval; a missing challenge neither pushes nor requests, a bad one pushes the error, a good one issues exactly one request; the ceremonies in flight grow by the requests issued and nothing else changes |
| AppWebAuthnHook.StepPreservesValid | assets/js/app.js:74-126 | every event keeps progress even and within 0..100 and a running scan below 100; while mounted the interval is armed exactly while scanning, and after `destroyed` it is not armed |
| AppWebAuthnHook.RunPreservesValid | assets/js/app.js:57-126 | the invariant holds after any sequence of events |
| AppWebAuthnHook.AfterDestroyedOnlySettlements | assets/js/app.js:120-122 | after `destroyed`, any sequence of events requests no ceremony and pushes only the reports of ceremonies already in flight |
| AppWebAuthnHook.PressAlwaysStartsWhenIdle | assets/js/app.js:75-87 | with no cap and no cooldown, a qualifying press always starts a scan when none is running |
| AppWebAuthnHook.ReleaseDuringScanReportsOne | assets/js/app.js:103-117 | releasing a running scan always pushes `biometric_reset {retry_count: 1}`, so the `progress < 100` test always passes; `progress` is kept |
| AppWebAuthnHook.RetryReportIsAlwaysOne | assets/js/app.js:116 | every retry report this variant pushes in any run carries 1; there is no counter |
| AppWebAuthnHook.TicksAdvance | assets/js/app.js:89-98 | below 100, n ticks add exactly 2n to `progress` and push and request nothing |
| AppWebAuthnHook.FiftyTicksFinish | assets/js/app.js:84-99 | after a start, 49 ticks leave the scan running at 98; the 50th reaches 100, clears scanning and the interval and finishes |
| HookVariants.FirstAttemptAgrees | assets/js/app.js:74-118 | until the first early release, each event pushes the same events and issues the same requests in both variants, and the states correspond |
| EChartsHook.CalculateMA | assets/js/hooks/echarts.js:137-151 | one point per candle; a point is `'-'` if and only if its index is below the period; point i otherwise averages the closes of candles i-period+1 through i |
| EChartsHook.InitChart | assets/js/hooks/echarts.js:37-42 | labels and candles have one entry per row, in order; candle i is `[open, close, low, high]` of row i; the average is the 5-period series of the candles |
| EChartsHook.AppendTick | assets/js/hooks/echarts.js:108-135 | the new label and flat candle end their sequences; lengths grow by one below 100 and stay put from 100 on; both sequences are the newest suffix of old-plus-new, so order is kept and lengths stay equal |
| EChartsHook.CappedKeepsNewest | assets/js/hooks/echarts.js:119-126 | pushing any elements onto a window leaves exactly its newest entries, oldest first: min(100, total) of them from a window of at most 100, and as many as the window held from a larger one |
| EChartsHook.AppendAllIsCapped | assets/js/hooks/echarts.js:116-126 | successive `appendTick` calls move labels and candles through the same capped window |
| EChartsHook.WindowKeepsNewest | assets/js/hooks/echarts.js:108-135 | any stream of ticks leaves the newest labels and candles: min(100, total) of them from at most 100 candles, and as many as there were from more |
| EChartsHook.Mount | assets/js/hooks/echarts.js:11-25 | a chart exists and the handler listens right after mounting if and only if the library was already loaded, which the hook records, and then it holds one candle per initial row; otherwise the set-up callback waits for its script |
| EChartsHook.OnScriptLoaded | assets/js/hooks/echarts.js:157-160 | a pending script's load makes the library present, removes that script and rebuilds the chart from the current rows |
| EChartsHook.OnNewTick | assets/js/hooks/echarts.js:20-22 | before the handler is registered, for another pair, or with no chart, a tick changes nothing; a matching tick pushes its label and candle through the capped window |
| EChartsHook.OnUpdated | assets/js/hooks/echarts.js:164-174 | the hook adopts the new rows and requests a rebuild exactly when they are non-empty and there was no chart or the old rows were empty: at once with the library present, by queuing a second script otherwise, the library's presence unchanged; else it is unchanged |
| EChartsHook.OnLibraryAppeared | assets/js/hooks/echarts.js:153-156 | the library defined by another script is recorded as present; nothing is built, no pending script is dropped and nothing else changes |
| EChartsHook.Step | assets/js/hooks/echarts.js:16-25 | every event keeps the chart well formed, at most max(100, number of initial rows) candles long, and the handler only on a built chart |
| EChartsHook.UpdatedIgnoredOnceBuilt | assets/js/hooks/echarts.js:167 | once a chart was built from non-empty rows, `updated` never rebuilds it |
| EChartsHook.ScriptLoadRebuildsFromRows | assets/js/hooks/echarts.js:169-172 | every script load leaves exactly the chart of the current rows, so ticks appended before it are discarded |
| EChartsHook.LibraryFromElsewhereBuildsAtOnce | assets/js/hooks/echarts.js:153-172 | once another script has defined the library, the first `updated` with rows builds its chart at once and a second `updated` is ignored |
| EChartsHook.QueuedUpdatesLaterRowsWin | assets/js/hooks/echarts.js:164-172 | without the library, two `updated` calls with rows both queue a rebuild and the later rows are the ones adopted |
| EChartsHook.UpdateBeforeLoadDiscardsTicks | assets/js/hooks/echarts.js:164-172 | rows adopted before the library loads queue a second script; a tick appended after the first load is gone once the second loads |
| EChartsHook.RunKeepsWindowBound | assets/js/hooks/echarts.js:108-126 | over any run the pair is fixed, a registered handler and a built chart stay, and labels and candles stay equal in number within max(100, number of initial rows) |

## Left out

- DOM presentation: class toggling, hint HTML, `resetVisuals`, the
  `getElements` lookups and every `--scan-p` CSS write. These are cosmetic and
  do not affect the pushed events or the hook's fields.
- `setPointerCapture` / `releasePointerCapture`, `preventDefault` on
  `contextmenu`, and `console` logging. These are browser side effects with
  no state.
- The 20 ms and 2000 ms durations. Timers are discrete tick and expiry
  events.
- `navigator.credentials.create` itself. The order in which several
  in-flight ceremonies settle is not modelled; the model keeps only their
  number.
- Ceremony request fields with no logic: the relying-party name and
  `window.location.hostname`, the `Math.random` user name, and the display
  name.
- What the socket does with a push made after `destroyed`. The model still
  records the push, as the code makes it.
- Ceremony.Context: the random bytes may have any length. The code always
  draws 16, and no stated property depends on the number.
- Ceremony.BeginCeremony: reports an `atob` failure as `InvalidChallenge`
  rather than the browser's exception message text, which varies by browser.
- EChartsHook.CalculateMA: records the closes each point averages, not the
  floating-point mean `toFixed(4)` prints. It also does not model the
  summation order.
- EChartsHook.InitChart: takes rows that already have five entries. Parsing
  `data-initial` with `JSON.parse`, and rows with missing entries, are not
  modelled. Labels stand for `toLocaleTimeString()` by the timestamp they
  format.
- EChartsHook.Mount: takes `data-pair` as a string. An absent attribute is
  not modelled.
- The CDN loader is modelled by which script callbacks are pending; the
  script fetch itself, and a load that fails, are not modelled. Calling
  `echarts.init` on an element that already holds a chart is taken to give
  a chart showing just the new option, as a fresh one would.
- The chart hook's `destroyed`, window resizing, and ECharts option
  rendering. These are library glue.
- `assets/js/hooks/cinematic.js` (mouse tracking with floating-point
  transforms), `assets/js/hooks/index.js` (a re-export barrel), and
  `assets/js/app.js:173-227` (LiveSocket, CSRF, topbar and live-reload
  wiring). None of these contains stateable logic.

=== FILE: app_webauthn_hook.dfy ===
/**
  `Hooks.WebAuthnHook` of assets/js/app.js:56-171, the earlier press-and-hold
  gesture that app.js registers with the LiveSocket (assets/js/app.js:54-56,
  174-178) instead of the hooks directory's version.

  It has the same start / tick / finish / ceremony flow, but no retry count
  and no cooldown: a start is refused only while a scan runs, and an early
  release always reports `retry_count: 1`.
*/
module AppWebAuthnHook {
  import opened Ceremony
  import opened ScanEvents

  const ProgressStep: int := 2
  const FullProgress: int := 100
  /** The constant this variant reports in every `biometric_reset {retry_count}`. */
  const ReportedRetry: nat := 1

  /** The fields `scanning` and `progress`, the interval, the element, the ceremonies in flight. */
  datatype Hook = Hook(
    mounted: bool,
    scanning: bool,
    progress: int,
    intervalArmed: bool,
    pendingCeremonies: nat)

  /** The state `mounted()` sets up. */
  function Mount(): (h: Hook)
    ensures Valid(h) && h.mounted && !h.scanning
    ensures h.progress == 0 && h.pendingCeremonies == 0
  {
    Hook(true, false, 0, false, 0)
  }

  predicate Valid(h: Hook) {
    && 0 <= h.progress <= FullProgress && h.progress % ProgressStep == 0
    && (h.scanning ==> h.progress < FullProgress)
    && (h.mounted ==> (h.intervalArmed <==> h.scanning))
    && (!h.mounted ==> !h.intervalArmed)
  }

  /** Listeners need the element, the tick an armed interval; this variant has no cooldown timer. */
  predicate Deliverable(h: Hook, e: Event) {
    match e
    case PointerDown(_, _) => h.mounted
    case PointerUp => h.mounted
    case PointerLeave => h.mounted
    case Destroyed => h.mounted
    case IntervalTick(_) => h.intervalArmed
    case CooldownExpired => false
    case CeremonySettled(_) => h.pendingCeremonies > 0
  }

  function Unchanged(h: Hook): Transition<Hook> {
    Transition(h, [], [])
  }

  /** `startScan`: refused only while a scan is already running. */
  function StartScan(h: Hook): (t: Transition<Hook>)
    ensures h.scanning <==> t == Unchanged(h)
    ensures !h.scanning ==>
      && t.next == h.(scanning := true, progress := 0, intervalArmed := true)
      && t.pushed == [BiometricStart] && t.requested == []
  {
    if h.scanning then Unchanged(h)
    else Transition(h.(scanning := true, progress := 0, intervalArmed := true), [BiometricStart], [])
  }

  /** `stopScan`: ends a running scan; reports `retry_count: 1` when it was short of 100. */
  function StopScan(h: Hook): (t: Transition<Hook>)
    ensures !h.scanning ==> t == Unchanged(h)
    ensures h.scanning ==>
      && t.next == h.(scanning := false, intervalArmed := false)
      && t.pushed == (if h.progress < FullProgress then [BiometricResetRetry(ReportedRetry)] else [])
      && t.requested == []
  {
    if !h.scanning then Unchanged(h)
    else
      var stopped := h.(scanning := false, intervalArmed := false);
      if h.progress < FullProgress then Transition(stopped, [BiometricResetRetry(ReportedRetry)], [])
      else Unchanged(stopped)
  }

  /** `finishScan`: stop the interval, then begin the ceremony. */
  function FinishScan(h: Hook, ctx: Context): (t: Transition<Hook>)
    ensures !t.next.scanning && !t.next.intervalArmed && t.next.progress == h.progress
    ensures t.next.pendingCeremonies == h.pendingCeremonies + |t.requested|
    ensures t.next.(scanning := h.scanning, intervalArmed := h.intervalArmed,
      pendingCeremonies := h.pendingCeremonies) == h
    ensures BeginCeremony(ctx).NoChallenge? ==> t.pushed == [] && t.requested == []
    ensures BeginCeremony(ctx).Failed? ==>
      t.pushed == [BiometricResetError(InvalidChallenge)] && t.requested == []
    ensures BeginCeremony(ctx).Requested? ==>
      && t.pushed == [] && t.requested == [BeginCeremony(ctx).request]
      && t.next.pendingCeremonies == h.pendingCeremonies + 1
  {
    var stopped := h.(scanning := false, intervalArmed := false);
    match BeginCeremony(ctx)
    case NoChallenge => Unchanged(stopped)
    case Failed(fault) => Transition(stopped, [BiometricResetError(fault)], [])
    case Requested(request) =>
      Transition(stopped.(pendingCeremonies := h.pendingCeremonies + 1), [], [request])
  }

  /** One firing of the interval: add 2, and at 100 clamp and finish. */
  function Tick(h: Hook, ctx: Context): (t: Transition<Hook>)
    ensures h.progress + ProgressStep < FullProgress ==>
      t == Unchanged(h.(progress := h.progress + ProgressStep))
    ensures h.progress + ProgressStep >= FullProgress ==>
      t == FinishScan(h.(progress := FullProgress), ctx)
  {
    var p := h.progress + ProgressStep;
    if p >= FullProgress then FinishScan(h.(progress := FullProgress), ctx)
    else Unchanged(h.(progress := p))
  }

  function Step(h: Hook, e: Event): (t: Transition<Hook>)
  {
    if !Deliverable(h, e) then Unchanged(h)
    else
      match e
      case PointerDown(pointerType, button) =>
        if StartsScan(pointerType, button) then StartScan(h) else Unchanged(h)
      case PointerUp => StopScan(h)
      case PointerLeave => StopScan(h)
      case IntervalTick(ctx) => Tick(h, ctx)
      case CooldownExpired => Unchanged(h)
      case CeremonySettled(outcome) =>
        Transition(h.(pendingCeremonies := h.pendingCeremonies - 1), [Settle(outcome)], [])
      case Destroyed => Unchanged(h.(mounted := false, intervalArmed := false))
  }

  function RunHook(h: Hook, events: seq<Event>): Transition<Hook> {
    Run(Step, h, events)
  }

  // ---------------------------------------------------------------------
  // Properties
  // ---------------------------------------------------------------------

  /** Every event keeps `0 <= progress <= 100` and the interval armed exactly while scanning. */
  lemma StepPreservesValid(h: Hook, e: Event)
    requires Valid(h)
    ensures Valid(Step(h, e).next)
  {
  }

  lemma RunPreservesValid(h: Hook, events: seq<Event>)
    requires Valid(h)
    ensures Valid(RunHook(h, events).next)
  {
    forall g, e | Valid(g) ensures Valid(Step(g, e).next) {
      StepPreservesValid(g, e);
    }
    RunPreserves(Step, Valid, h, events);
  }

  /**
    After `destroyed` no listener and no timer reaches the hook: the only
    thing any later events can do is report a ceremony still in flight, and
    no new ceremony is requested.
  */
  lemma {:induction false} AfterDestroyedOnlySettlements(h: Hook, events: seq<Event>)
    requires Valid(h) && !h.mounted
    ensures var t := RunHook(h, events);
      && t.requested == []
      && forall i :: 0 <= i < |t.pushed| ==> IsSettlementReport(t.pushed[i])
    decreases |events|
  {
    if |events| != 0 {
      StepPreservesValid(h, events[0]);
      AfterDestroyedOnlySettlements(Step(h, events[0]).next, events[1..]);
    }
  }

  /** With no cap and no cooldown, a qualifying press always starts a scan when none is running. */
  lemma PressAlwaysStartsWhenIdle(h: Hook, pointerType: string, button: int)
    requires Valid(h) && h.mounted && !h.scanning && StartsScan(pointerType, button)
    ensures var t := Step(h, PointerDown(pointerType, button));
      t.pushed == [BiometricStart] && t.next.scanning && t.next.progress == 0 && t.next.intervalArmed
  {
  }

  /** The `progress < 100` test of `stopScan` always passes: every release of a running scan reports 1. */
  lemma ReleaseDuringScanReportsOne(h: Hook, e: Event)
    requires Valid(h) && h.mounted && h.scanning && (e == PointerUp || e == PointerLeave)
    ensures var t := Step(h, e);
      && t.pushed == [BiometricResetRetry(ReportedRetry)]
      && !t.next.scanning && !t.next.intervalArmed && t.next.progress == h.progress
  {
  }

  /** Every `biometric_reset {retry_count}` this variant ever pushes carries 1, however many aborts came before. */
  lemma {:induction false} RetryReportIsAlwaysOne(h: Hook, events: seq<Event>)
    ensures forall p :: p in RunHook(h, events).pushed && p.BiometricResetRetry? ==> p.retryCount == ReportedRetry
    decreases |events|
  {
    if |events| != 0 {
      var first := Step(h, events[0]);
      RetryReportIsAlwaysOne(first.next, events[1..]);
      assert forall p :: p in first.pushed && p.BiometricResetRetry? ==> p.retryCount == ReportedRetry;
    }
  }

  /** Short of 100, ticks only advance `progress`, 2 at a time, pushing nothing. */
  lemma {:induction false} TicksAdvance(h: Hook, n: nat, ctx: Context)
    requires Valid(h) && h.mounted && h.scanning && h.progress + ProgressStep * n < FullProgress
    ensures RunHook(h, Ticks(n, ctx)) == Unchanged(h.(progress := h.progress + ProgressStep * n))
    decreases n
  {
    if n != 0 {
      var h1 := h.(progress := h.progress + ProgressStep);
      assert Step(h, IntervalTick(ctx)) == Unchanged(h1);
      assert Ticks(n, ctx)[1..] == Ticks(n - 1, ctx);
      TicksAdvance(h1, n - 1, ctx);
    }
  }

  /** After a start, 49 ticks leave the scan at 98 and the 50th finishes it. */
  lemma FiftyTicksFinish(h: Hook, pointerType: string, button: int, ctx: Context)
    requires Valid(h) && h.mounted && !h.scanning && StartsScan(pointerType, button)
    ensures var started := Step(h, PointerDown(pointerType, button)).next;
      && RunHook(started, Ticks(49, ctx)) == Unchanged(started.(progress := 98))
      && var done := RunHook(started, Ticks(50, ctx));
         && done.next.progress == FullProgress && !done.next.scanning && !done.next.intervalArmed
         && done == FinishScan(started.(progress := FullProgress), ctx)
  {
    var started := Step(h, PointerDown(pointerType, button)).next;
    TicksAdvance(started, 49, ctx);
    assert Ticks(50, ctx) == Ticks(49, ctx) + [IntervalTick(ctx)];
    RunConcat(Step, started, Ticks(49, ctx), [IntervalTick(ctx)]);
    assert started.(progress := 98).(progress := FullProgress) == started.(progress := FullProgress);
  }
}

=== FILE: base64.dfy ===
/**
  The browser's `btoa` / `atob` pair, which the WebAuthn helpers call as
  library functions.

  - `Btoa` is the padded encoding of section 4 of RFC 4648 applied to a
    string of code units 0..255 (a byte string).
  - `Atob` is the "forgiving-base64 decode" of the WHATWG Infra standard:
    ASCII whitespace is removed, one or two trailing `=` are dropped when the
    length is a multiple of 4, a length of 1 modulo 4 or a character outside
    the alphabet is an `InvalidCharacterError`, and bits left over in a final
    partial group are discarded.
*/
module Base64 {
  import opened Seqs

  /** One element of a `Uint8Array`. */
  type Byte = b: int | 0 <= b < 256

  /** The outcome of `atob`: the decoded byte string, or the DOMException it throws. */
  datatype Decoded = Bytes(value: seq<Byte>) | InvalidCharacterError

  predicate IsAsciiAlphanumeric(c: char) {
    'A' <= c <= 'Z' || 'a' <= c <= 'z' || '0' <= c <= '9'
  }

  /** Membership in the alphabet of section 4 of RFC 4648 (the pad `=` excluded). */
  predicate IsBase64Char(c: char) {
    IsAsciiAlphanumeric(c) || c == '+' || c == '/'
  }

  /** ASCII whitespace in the sense of the Infra standard: TAB, LF, FF, CR, SPACE. */
  predicate IsAsciiWhitespace(c: char) {
    c == '\t' || c == '\n' || c as int == 12 || c == '\r' || c == ' '
  }

  predicate AllBase64(s: seq<char>) {
    forall i :: 0 <= i < |s| ==> IsBase64Char(s[i])
  }

  /** The character with value `i` in the alphabet of section 4 of RFC 4648. */
  function Base64Char(i: int): (c: char)
    requires 0 <= i < 64
    ensures IsBase64Char(c)
  {
    if i < 26 then (65 + i) as char
    else if i < 52 then (97 + i - 26) as char
    else if i < 62 then (48 + i - 52) as char
    else if i == 62 then '+'
    else '/'
  }

  /** The value of an alphabet character; the inverse of `Base64Char`. */
  function Base64Value(c: char): (i: int)
    requires IsBase64Char(c)
    ensures 0 <= i < 64 && Base64Char(i) == c
  {
    if 'A' <= c <= 'Z' then c as int - 65
    else if 'a' <= c <= 'z' then c as int - 97 + 26
    else if '0' <= c <= '9' then c as int - 48 + 52
    else if c == '+' then 62
    else 63
  }

  lemma ValueOfChar(i: int)
    requires 0 <= i < 64
    ensures Base64Value(Base64Char(i)) == i
  {
  }

  /** The four characters of one full 3-byte group. */
  function EncodeTriple(x: Byte, y: Byte, z: Byte): (s: seq<char>)
    ensures |s| == 4 && AllBase64(s)
  {
    [Base64Char(x / 4), Base64Char((x % 4) * 16 + y / 16),
     Base64Char((y % 16) * 4 + z / 64), Base64Char(z % 64)]
  }

  /** The 2 or 3 characters of a final group of 1 or 2 bytes (no padding). */
  function EncodeTail(b: seq<Byte>): (s: seq<char>)
    requires |b| < 3
    ensures |s| == (4 * |b| + 2) / 3 && AllBase64(s)
  {
    if |b| == 0 then []
    else if |b| == 1 then [Base64Char(b[0] / 4), Base64Char((b[0] % 4) * 16)]
    else [Base64Char(b[0] / 4), Base64Char((b[0] % 4) * 16 + b[1] / 16), Base64Char((b[1] % 16) * 4)]
  }

  /** The unpadded encoding: 4 characters per 3-byte group, 2 or 3 for a final partial group. */
  function EncodeGroups(b: seq<Byte>): (s: seq<char>)
    ensures |s| == (4 * |b| + 2) / 3 && |s| % 4 != 1
    ensures AllBase64(s)
    decreases |b|
  {
    UnpaddedLength(|b|);
    if |b| < 3 then EncodeTail(b)
    else EncodeTriple(b[0], b[1], b[2]) + EncodeGroups(b[3..])
  }

  /** The three bytes of four alphabet characters. */
  function DecodeQuad(s: seq<char>): (b: seq<Byte>)
    requires |s| == 4 && AllBase64(s)
    ensures |b| == 3
  {
    var v0, v1, v2, v3 := Base64Value(s[0]), Base64Value(s[1]), Base64Value(s[2]), Base64Value(s[3]);
    [v0 * 4 + v1 / 16, (v1 % 16) * 16 + v2 / 4, (v2 % 4) * 64 + v3]
  }

  /** The 1 or 2 bytes of a final group of 2 or 3 characters; the leftover low bits are dropped. */
  function DecodeTail(s: seq<char>): (b: seq<Byte>)
    requires |s| < 4 && |s| != 1 && AllBase64(s)
    ensures |b| == 3 * |s| / 4
  {
    if |s| == 0 then []
    else
      var v0, v1 := Base64Value(s[0]), Base64Value(s[1]);
      if |s| == 2 then [v0 * 4 + v1 / 16]
      else [v0 * 4 + v1 / 16, (v1 % 16) * 16 + Base64Value(s[2]) / 4]
  }

  /** The inverse of `EncodeGroups` on well-formed input. */
  function DecodeGroups(s: seq<char>): (b: seq<Byte>)
    requires |s| % 4 != 1 && AllBase64(s)
    ensures |b| == 3 * |s| / 4
    decreases |s|
  {
    if |s| < 4 then DecodeTail(s)
    else DecodeQuad(s[..4]) + DecodeGroups(s[4..])
  }

  /** `btoa` on a byte string: the groups followed by `=` padding to a multiple of 4. */
  function Btoa(b: seq<Byte>): (s: seq<char>)
    ensures |s| == 4 * ((|b| + 2) / 3)
    ensures |s| % 4 == 0
    ensures forall i :: 0 <= i < |s| ==> IsBase64Char(s[i]) || s[i] == '='
  {
    var pad := if |b| % 3 == 1 then "==" else if |b| % 3 == 2 then "=" else "";
    PaddedLength(|b|);
    FullGroups((|b| + 2) / 3);
    assert |pad| == [0, 2, 1][|b| % 3];
    EncodeGroups(b) + pad
  }

  /** The string with every ASCII whitespace character removed, order kept. */
  function RemoveWhitespace(s: seq<char>): (r: seq<char>)
    ensures |r| <= |s|
    ensures forall i :: 0 <= i < |r| ==> !IsAsciiWhitespace(r[i])
    ensures (forall i :: 0 <= i < |s| ==> !IsAsciiWhitespace(s[i])) ==> r == s
  {
    if |s| == 0 then []
    else (if IsAsciiWhitespace(s[0]) then [] else [s[0]]) + RemoveWhitespace(s[1..])
  }

  /** Removes two trailing `=` if present, otherwise one if present. */
  function DropPadding(s: seq<char>): (r: seq<char>)
    ensures r <= s && |s| - 2 <= |r|
    ensures (|s| == 0 || s[|s| - 1] != '=') ==> r == s
  {
    if 2 <= |s| && s[|s| - 2] == '=' && s[|s| - 1] == '=' then s[..|s| - 2]
    else if 1 <= |s| && s[|s| - 1] == '=' then s[..|s| - 1]
    else s
  }

  /** `atob`: the forgiving-base64 decode of the Infra standard. */
  function Atob(s: seq<char>): (r: Decoded)
  {
    var t := RemoveWhitespace(s);
    var u := if |t| % 4 == 0 then DropPadding(t) else t;
    if |u| % 4 == 1 || !AllBase64(u) then InvalidCharacterError
    else Bytes(DecodeGroups(u))
  }

  /** Splitting three bytes into four sextets and joining them again gives the bytes back. */
  lemma SextetsRoundTrip(x: Byte, y: Byte, z: Byte)
    ensures var v1, v2 := (x % 4) * 16 + y / 16, (y % 16) * 4 + z / 64;
      && (x / 4) * 4 + v1 / 16 == x
      && (v1 % 16) * 16 + v2 / 4 == y
      && (v2 % 4) * 64 + z % 64 == z
  {
    var v1, v2 := (x % 4) * 16 + y / 16, (y % 16) * 4 + z / 64;
    assert v1 / 16 == x % 4 && v1 % 16 == y / 16;
    assert v2 / 4 == y % 16 && v2 % 4 == z / 64;
  }

  /** One full group: the four sextets decode back to the three bytes they came from. */
  lemma TripleRoundTrip(x: Byte, y: Byte, z: Byte)
    ensures DecodeQuad(EncodeTriple(x, y, z)) == [x, y, z]
  {
    var v1, v2 := (x % 4) * 16 + y / 16, (y % 16) * 4 + z / 64;
    var s := EncodeTriple(x, y, z);
    ValueOfChar(x / 4);
    ValueOfChar(v1);
    ValueOfChar(v2);
    ValueOfChar(z % 64);
    assert Base64Value(s[0]) == x / 4 && Base64Value(s[1]) == v1;
    assert Base64Value(s[2]) == v2 && Base64Value(s[3]) == z % 64;
    SextetsRoundTrip(x, y, z);
  }

  /** A final partial group decodes back to its 0, 1 or 2 bytes. */
  lemma TailRoundTrip(b: seq<Byte>)
    requires |b| < 3
    ensures DecodeTail(EncodeTail(b)) == b
  {
    if |b| == 1 {
      ValueOfChar(b[0] / 4);
      ValueOfChar((b[0] % 4) * 16);
    } else if |b| == 2 {
      ValueOfChar(b[0] / 4);
      ValueOfChar((b[0] % 4) * 16 + b[1] / 16);
      ValueOfChar((b[1] % 16) * 4);
    }
  }

  /** Decoding a full group followed by more characters decodes the group, then the rest. */
  lemma DecodeGroupsCons(q: seq<char>, rest: seq<char>)
    requires |q| == 4 && AllBase64(q) && AllBase64(rest) && |rest| % 4 != 1
    ensures AllBase64(q + rest) && |q + rest| % 4 != 1
    ensures DecodeGroups(q + rest) == DecodeQuad(q) + DecodeGroups(rest)
  {
    var s := q + rest;
    assert s[..4] == q && s[4..] == rest;
  }

  /** Decoding the unpadded groups of any byte string gives the bytes back. */
  lemma {:induction false} GroupsRoundTrip(b: seq<Byte>)
    ensures DecodeGroups(EncodeGroups(b)) == b
    decreases |b|
  {
    if |b| < 3 {
      TailRoundTrip(b);
    } else {
      var q, rest := EncodeTriple(b[0], b[1], b[2]), EncodeGroups(b[3..]);
      assert EncodeGroups(b) == q + rest;
      UnpaddedLength(|b| - 3);
      DecodeGroupsCons(q, rest);
      TripleRoundTrip(b[0], b[1], b[2]);
      GroupsRoundTrip(b[3..]);
      SplitThree(b);
    }
  }

  /** The padded encoding loses its padding, and nothing else, in `DropPadding`. */
  lemma DropBtoaPadding(b: seq<Byte>)
    ensures DropPadding(Btoa(b)) == EncodeGroups(b)
  {
    var g, s := EncodeGroups(b), Btoa(b);
    if |b| % 3 == 1 {
      assert s[..|s| - 2] == g;
    } else if |b| % 3 == 2 {
      assert s[..|s| - 1] == g;
    } else {
      assert s == g;
    }
  }

  /** An unpadded encoding is never 1 character past a multiple of 4. */
  lemma UnpaddedLength(n: nat)
    ensures (4 * n + 2) / 3 % 4 != 1
    ensures (4 * n + 2) / 3 % 4 == [0, 2, 3][n % 3]
  {
    var q, r := n / 3, n % 3;
    assert n == 3 * q + r;
    assert (4 * n + 2) / 3 == 4 * q + (4 * r + 2) / 3;
  }

  /** Padding the unpadded encoding of `n` bytes with 0, 2 or 1 `=` gives 4 characters per started group. */
  lemma PaddedLength(n: nat)
    ensures (4 * n + 2) / 3 + [0, 2, 1][n % 3] == 4 * ((n + 2) / 3)
  {
    var q, r := n / 3, n % 3;
    assert n == 3 * q + r;
    assert (4 * n + 2) / 3 == 4 * q + (4 * r + 2) / 3;
    assert (n + 2) / 3 == q + (r + 2) / 3;
  }

  /** A whole number of 4-character groups is a multiple of 4. */
  lemma FullGroups(k: int)
    ensures (4 * k) % 4 == 0
  {
  }

  /** Whitespace removal works piecewise on a concatenation. */
  lemma {:induction false} RemoveWhitespaceConcat(a: seq<char>, b: seq<char>)
    ensures RemoveWhitespace(a + b) == RemoveWhitespace(a) + RemoveWhitespace(b)
    decreases |a|
  {
    if |a| == 0 {
      assert a + b == b;
    } else {
      assert (a + b)[0] == a[0] && (a + b)[1..] == a[1..] + b;
      RemoveWhitespaceConcat(a[1..], b);
      var head := if IsAsciiWhitespace(a[0]) then [] else [a[0]];
      ConcatAssoc(head, RemoveWhitespace(a[1..]), RemoveWhitespace(b));
    }
  }

  /**
    `atob` rejects anything that ends in three `=`: at most two of them are
    dropped as padding, and the one left is outside the alphabet.
  */
  lemma AtobRejectsTriplePad(x: seq<char>)
    ensures Atob(x + "===") == InvalidCharacterError
  {
    RemoveWhitespaceConcat(x, "===");
    assert RemoveWhitespace("===") == "===";
    var w := RemoveWhitespace(x);
    var t := w + "===";
    assert RemoveWhitespace(x + "===") == t;
    var u := if |t| % 4 == 0 then DropPadding(t) else t;
    assert u[..|w| + 1] == w + "=" by {
      if |t| % 4 == 0 {
        assert DropPadding(t) == t[..|t| - 2];
      }
    }
    assert u[|w|] == '=';
    assert !AllBase64(u);
  }

  /** `atob` on whitespace-free input of a length divisible by 4 judges what is left after the padding. */
  lemma AtobPadded(s: seq<char>)
    requires forall i :: 0 <= i < |s| ==> !IsAsciiWhitespace(s[i])
    requires |s| % 4 == 0
    ensures Atob(s) ==
      var u := DropPadding(s);
      if |u| % 4 == 1 || !AllBase64(u) then InvalidCharacterError else Bytes(DecodeGroups(u))
  {
  }

  /** `atob(btoa(b)) == b` for every byte string. */
  lemma BtoaAtobRoundTrip(b: seq<Byte>)
    ensures Atob(Btoa(b)) == Bytes(b)
  {
    var s := Btoa(b);
    forall i | 0 <= i < |s| ensures !IsAsciiWhitespace(s[i]) {
      assert IsBase64Char(s[i]) || s[i] == '=';
    }
    DropBtoaPadding(b);
    UnpaddedLength(|b|);
    AtobPadded(s);
    GroupsRoundTrip(b);
  }
}

=== FILE: ceremony.dfy ===
/**
  The tail of `finishScan`, the same in both WebAuthn hooks
  (assets/js/hooks/webauthn.js:235-277, assets/js/app.js:128-169) apart
  from the `resetVisuals()` call in the `catch` of webauthn.js:275, which
  is presentation: read the
  challenge from the nearest `[data-challenge]` ancestor, build the
  credential-creation options, and report the platform's answer to the
  server.

  `navigator.credentials.create` is a foreign, asynchronous browser call: the
  model records the request it would be given and later receives its
  settled promise as an `Outcome`.
*/
module Ceremony {
  import opened Wrappers
  import opened Base64
  import opened WebAuthnUtils

  /** COSE algorithm identifiers, in the order of preference the request lists them. */
  const ES256: int := -7
  const RS256: int := -257
  /** The ceremony timeout, in milliseconds. */
  const TimeoutMs: nat := 60000

  /** The `publicKey` options handed to `navigator.credentials.create`. */
  datatype CreationRequest = CreationRequest(
    challenge: seq<Byte>,
    userId: seq<Byte>,
    algorithms: seq<int>,
    authenticatorAttachment: string,
    userVerification: string,
    residentKey: string,
    timeoutMs: nat,
    attestation: string)

  /** What `biometric_reset {error}` reports. */
  datatype Fault =
    | InvalidChallenge              // `atob` threw while decoding the challenge
    | CeremonyError(message: string) // the platform rejected the ceremony

  /** The events pushed to the server over the socket. */
  datatype Push =
    | BiometricStart
    | BiometricResetRetry(retryCount: nat)
    | BiometricResetError(fault: Fault)
    | BiometricComplete(attestationObject: string, clientDataJson: string)

  /** The settled promise of `navigator.credentials.create`. */
  datatype Outcome =
    | Created(attestationObject: seq<Byte>, clientDataJson: seq<Byte>)
    | Rejected(message: string)

  /**
    What `finishScan` reads from its surroundings: the `data-challenge`
    attribute (absent when no ancestor carries it) and the random bytes
    `crypto.getRandomValues` supplies for the user handle.
  */
  datatype Context = Context(challengeAttr: Option<string>, randomBytes: seq<Byte>)

  /** The synchronous part of the ceremony, up to the `await`. */
  datatype Begun =
    | NoChallenge                     // logged, nothing attempted, nothing pushed
    | Failed(fault: Fault)            // thrown before the platform call, caught, reported
    | Requested(request: CreationRequest)

  /** `!challengeBase64URL`: an absent attribute and an empty one are both falsy. */
  predicate HasChallenge(ctx: Context) {
    ctx.challengeAttr.Some? && ctx.challengeAttr.value != ""
  }

  /** The options object `finishScan` builds, or the reason none is built. */
  function BeginCeremony(ctx: Context): (r: Begun)
    ensures r.NoChallenge? <==> !HasChallenge(ctx)
    ensures r.Failed? <==>
      HasChallenge(ctx) && Base64UrlToBuffer(ctx.challengeAttr.value) == InvalidCharacterError
    ensures r.Failed? ==> r.fault == InvalidChallenge
    ensures r.Requested? ==>
      && Base64UrlToBuffer(ctx.challengeAttr.value) == Bytes(r.request.challenge)
      && r.request.userId == ctx.randomBytes
      && r.request.algorithms == [ES256, RS256]
      && r.request.timeoutMs == TimeoutMs
  {
    if !HasChallenge(ctx) then NoChallenge
    else
      match Base64UrlToBuffer(ctx.challengeAttr.value)
      case InvalidCharacterError => Failed(InvalidChallenge)
      case Bytes(challenge) =>
        RoundTrip(ctx.randomBytes);
        var userId := Base64UrlToBuffer(ArrayBufferToBase64Url(ctx.randomBytes)).value;
        Requested(CreationRequest(
          challenge, userId, [ES256, RS256], "platform", "required", "preferred", TimeoutMs, "none"))
  }

  /** A push that only the settlement of a ceremony makes. */
  predicate IsSettlementReport(p: Push) {
    p.BiometricComplete? || (p.BiometricResetError? && p.fault.CeremonyError?)
  }

  /** The event pushed once the platform's promise settles. */
  function Settle(outcome: Outcome): (p: Push)
    ensures outcome.Created? <==> p.BiometricComplete?
    ensures p.BiometricComplete? ==>
      && p.attestationObject == ArrayBufferToBase64Url(outcome.attestationObject)
      && p.clientDataJson == ArrayBufferToBase64Url(outcome.clientDataJson)
      && IsUnpaddedBase64Url(p.attestationObject, |outcome.attestationObject|)
      && IsUnpaddedBase64Url(p.clientDataJson, |outcome.clientDataJson|)
      && Base64UrlToBuffer(p.attestationObject) == Bytes(outcome.attestationObject)
      && Base64UrlToBuffer(p.clientDataJson) == Bytes(outcome.clientDataJson)
    ensures outcome.Rejected? ==> p == BiometricResetError(CeremonyError(outcome.message))
  {
    match outcome
    case Created(attestation, clientData) =>
      RoundTrip(attestation);
      RoundTrip(clientData);
      BiometricComplete(ArrayBufferToBase64Url(attestation), ArrayBufferToBase64Url(clientData))
    case Rejected(message) =>
      BiometricResetError(CeremonyError(message))
  }
}

=== FILE: echarts_hook.dfy ===
/**
  `EChartsHook` of assets/js/hooks/echarts.js: a candlestick chart built from
  the element's `data-initial` rows, then fed by `new-tick` events for its
  own currency pair through a window of at most 100 candles (or of the
  initial size, when more rows than that were given), with a
  5-period moving-average line alongside.

  Only the structure is modelled: which entries the sequences hold, their
  lengths and order, and where the moving average has `'-'` placeholders.
  Prices are never computed with, and a moving-average point records the
  closes it averages rather than the formatted float.
*/
module EChartsHook {
  import opened Wrappers

  /** A JavaScript number, only ever copied. */
  type Price = real

  /** Past this many candles `appendTick` drops the oldest one after each push. */
  const MaxPoints: nat := 100
  /** `calculateMA(5, ...)`: the period of the moving-average line. */
  const MaPeriod: nat := 5

  /** `new Date(t).toLocaleTimeString()`: a category-axis label, kept as the timestamp it formats. */
  datatype TimeLabel = LocaleTime(millis: int)

  /** One row of `data-initial`: `[time, open, close, low, high]`. */
  datatype Row = Row(time: int, open: Price, close: Price, low: Price, high: Price)

  /** A candlestick item `[open, close, low, high]`; index 1, the close, feeds the average. */
  datatype Candle = Candle(open: Price, close: Price, low: Price, high: Price)

  /** One point of the moving-average series: `'-'`, or the mean of these closes. */
  datatype MaPoint = Dash | Mean(closes: seq<Price>)

  /** The three series the hook reads back and writes: x-axis labels, candles, average. */
  datatype Chart = Chart(dates: seq<TimeLabel>, candles: seq<Candle>, ma: seq<MaPoint>)

  /** What an initialised or updated chart always satisfies. */
  predicate WellFormed(c: Chart) {
    |c.dates| == |c.candles| && c.ma == CalculateMA(MaPeriod, c.candles)
  }

  function Closes(data: seq<Candle>): (r: seq<Price>)
    ensures |r| == |data| && forall i :: 0 <= i < |data| ==> r[i] == data[i].close
  {
    seq(|data|, i requires 0 <= i < |data| => data[i].close)
  }

  /**
    `calculateMA(dayCount, data)`: one point per candle, pushed in order.
    The first `dayCount` points are `'-'`; point `i` after them averages the
    closes of candles `i - dayCount + 1` through `i`.
  */
  function CalculateMA(dayCount: nat, data: seq<Candle>): (r: seq<MaPoint>)
    ensures |r| == |data|
    ensures forall i :: 0 <= i < |r| ==> (r[i] == Dash <==> i < dayCount)
    ensures forall i :: dayCount <= i < |r| ==>
      |r[i].closes| == dayCount && r[i].closes == Closes(data[i + 1 - dayCount..i + 1])
    decreases |data|
  {
    if |data| == 0 then []
    else
      var i := |data| - 1;
      var prefix := CalculateMA(dayCount, data[..i]);
      prefix + [if i < dayCount then Dash else Mean(Closes(data[i + 1 - dayCount..]))]
  }

  /** `initChart`: labels and candles projected from the rows, one each, in order. */
  function InitChart(rows: seq<Row>): (c: Chart)
    ensures WellFormed(c) && |c.candles| == |rows|
    ensures forall i :: 0 <= i < |rows| ==>
      && c.dates[i] == LocaleTime(rows[i].time)
      && c.candles[i] == Candle(rows[i].open, rows[i].close, rows[i].low, rows[i].high)
  {
    var candles := seq(|rows|, i requires 0 <= i < |rows| => Candle(rows[i].open, rows[i].close, rows[i].low, rows[i].high));
    var dates := seq(|rows|, i requires 0 <= i < |rows| => LocaleTime(rows[i].time));
    Chart(dates, candles, CalculateMA(MaPeriod, candles))
  }

  /** A single tick is a flat candle: open, close, low and high are all the tick's price. */
  function TickCandle(price: Price): Candle {
    Candle(price, price, price, price)
  }

  /** `appendTick` on an existing chart: push one label and one candle, then drop the oldest past 100. */
  function AppendTick(c: Chart, time: int, price: Price): (r: Chart)
    requires WellFormed(c)
    ensures WellFormed(r)
    ensures |c.dates| < MaxPoints ==> |r.dates| == |c.dates| + 1
    ensures |c.dates| >= MaxPoints ==> |r.dates| == |c.dates|
    ensures r.dates[|r.dates| - 1] == LocaleTime(time) && r.candles[|r.candles| - 1] == TickCandle(price)
    ensures r.candles == Suffix(c.candles + [TickCandle(price)], |r.candles|)
    ensures r.dates == Suffix(c.dates + [LocaleTime(time)], |r.dates|)
  {
    var dates := c.dates + [LocaleTime(time)];
    var candles := c.candles + [TickCandle(price)];
    if |dates| > MaxPoints then
      Chart(dates[1..], candles[1..], CalculateMA(MaPeriod, candles[1..]))
    else
      Chart(dates, candles, CalculateMA(MaPeriod, candles))
  }

  function Last<T>(s: seq<T>): T
    requires |s| > 0
  {
    s[|s| - 1]
  }

  /** The last `n` elements of `s`. */
  function Suffix<T>(s: seq<T>, n: nat): (r: seq<T>)
    requires n <= |s|
    ensures |r| == n && forall i :: 0 <= i < n ==> r[i] == s[|s| - n + i]
  {
    s[|s| - n..]
  }

  /** A `new-tick` payload's time and price. */
  datatype Tick = Tick(time: int, price: Price)

  function TickLabels(ticks: seq<Tick>): (r: seq<TimeLabel>)
    ensures |r| == |ticks| && forall i :: 0 <= i < |ticks| ==> r[i] == LocaleTime(ticks[i].time)
  {
    seq(|ticks|, i requires 0 <= i < |ticks| => LocaleTime(ticks[i].time))
  }

  function TickCandles(ticks: seq<Tick>): (r: seq<Candle>)
    ensures |r| == |ticks| && forall i :: 0 <= i < |ticks| ==> r[i] == TickCandle(ticks[i].price)
  {
    seq(|ticks|, i requires 0 <= i < |ticks| => TickCandle(ticks[i].price))
  }

  /** `appendTick` applied to each tick in turn. */
  function AppendAll(c: Chart, ticks: seq<Tick>): (r: Chart)
    requires WellFormed(c)
    ensures WellFormed(r)
    decreases |ticks|
  {
    if |ticks| == 0 then c
    else AppendAll(AppendTick(c, ticks[0].time, ticks[0].price), ticks[1..])
  }

  function Min(a: int, b: int): int {
    if a <= b then a else b
  }

  function Max(a: int, b: int): int {
    if a <= b then b else a
  }

  /** One push onto a window trimmed at the front once it exceeds 100. */
  function PushCapped<T>(s: seq<T>, x: T): seq<T> {
    var t := s + [x];
    if |t| > MaxPoints then t[1..] else t
  }

  /** `PushCapped` applied to each element in turn. */
  function PushAllCapped<T>(s: seq<T>, xs: seq<T>): seq<T>
    decreases |xs|
  {
    if |xs| == 0 then s else PushAllCapped(PushCapped(s, xs[0]), xs[1..])
  }

  /** Taking a suffix, appending, then a shorter suffix, is a suffix of the whole. */
  lemma SuffixOfSuffix<T>(s: seq<T>, m: nat, rest: seq<T>, k: nat)
    requires m <= |s| && k <= m + |rest|
    ensures Suffix(Suffix(s, m) + rest, k) == Suffix(s + rest, k)
  {
  }

  /**
    How many elements a window that starts with `start` keeps after `added`
    pushes: it grows to 100 and no further, but a window that starts above
    100 only ever loses one element per push and so keeps its size.
  */
  function WindowSize(start: nat, added: nat): nat {
    Min(Max(MaxPoints, start), start + added)
  }

  /** One push keeps the newest `WindowSize(|s|, 1)` elements. */
  lemma PushCappedIsSuffix<T>(s: seq<T>, x: T)
    ensures PushCapped(s, x) == Suffix(s + [x], WindowSize(|s|, 1))
  {
  }

  /** Trimming after the first push, then after the rest, keeps what trimming once at the end keeps. */
  lemma PushThenSuffix<T>(s: seq<T>, xs: seq<T>, m: nat, n: nat)
    requires |xs| != 0 && m <= |s| + 1 && n <= m + |xs| - 1
    ensures Suffix(Suffix(s + [xs[0]], m) + xs[1..], n) == Suffix(s + xs, n)
  {
    SuffixOfSuffix(s + [xs[0]], m, xs[1..], n);
    assert s + [xs[0]] + xs[1..] == s + xs;
  }

  /**
    Any run of pushes keeps exactly the newest `WindowSize(|s|, |xs|)`
    elements, oldest first: the newest `min(100, total)` from a window of at
    most 100, and the newest `|s|` from a larger one.
  */
  lemma {:induction false} CappedKeepsNewest<T>(s: seq<T>, xs: seq<T>)
    ensures PushAllCapped(s, xs) == Suffix(s + xs, WindowSize(|s|, |xs|))
    decreases |xs|
  {
    if |xs| == 0 {
      assert s + xs == s;
    } else {
      var s1 := PushCapped(s, xs[0]);
      var m := WindowSize(|s|, 1);
      PushCappedIsSuffix(s, xs[0]);
      CappedKeepsNewest(s1, xs[1..]);
      var n := WindowSize(|s|, |xs|);
      assert WindowSize(m, |xs[1..]|) == n;
      PushThenSuffix(s, xs, m, n);
    }
  }

  /** One `appendTick` pushes its label and its candle through the capped window. */
  lemma AppendTickIsPush(c: Chart, t: Tick)
    requires WellFormed(c)
    ensures AppendTick(c, t.time, t.price).dates == PushCapped(c.dates, LocaleTime(t.time))
    ensures AppendTick(c, t.time, t.price).candles == PushCapped(c.candles, TickCandle(t.price))
  {
  }

  /** The labels and candles of a non-empty stream start with those of its first tick. */
  lemma TickStreamsUncons(ticks: seq<Tick>)
    requires |ticks| != 0
    ensures TickLabels(ticks) == [LocaleTime(ticks[0].time)] + TickLabels(ticks[1..])
    ensures TickCandles(ticks) == [TickCandle(ticks[0].price)] + TickCandles(ticks[1..])
  {
  }

  /** A run of `appendTick` moves labels and candles through the same capped window. */
  lemma {:induction false} AppendAllIsCapped(c: Chart, ticks: seq<Tick>)
    requires WellFormed(c)
    ensures AppendAll(c, ticks).dates == PushAllCapped(c.dates, TickLabels(ticks))
    ensures AppendAll(c, ticks).candles == PushAllCapped(c.candles, TickCandles(ticks))
    decreases |ticks|
  {
    if |ticks| != 0 {
      var t := ticks[0];
      var c1 := AppendTick(c, t.time, t.price);
      AppendTickIsPush(c, t);
      AppendAllIsCapped(c1, ticks[1..]);
      TickStreamsUncons(ticks);
      var ls, cs := TickLabels(ticks), TickCandles(ticks);
      assert ls[0] == LocaleTime(t.time) && ls[1..] == TickLabels(ticks[1..]);
      assert cs[0] == TickCandle(t.price) && cs[1..] == TickCandles(ticks[1..]);
    }
  }

  /**
    Any stream of ticks leaves exactly the newest `WindowSize` labels and
    candles, oldest first: `min(100, total)` from a chart of at most 100
    candles, and the chart's own size from a larger one.
  */
  lemma WindowKeepsNewest(c: Chart, ticks: seq<Tick>)
    requires WellFormed(c)
    ensures var r := AppendAll(c, ticks);
      var n := WindowSize(|c.candles|, |ticks|);
      && r.candles == Suffix(c.candles + TickCandles(ticks), n)
      && r.dates == Suffix(c.dates + TickLabels(ticks), n)
  {
    AppendAllIsCapped(c, ticks);
    CappedKeepsNewest(c.candles, TickCandles(ticks));
    CappedKeepsNewest(c.dates, TickLabels(ticks));
  }

  // ---------------------------------------------------------------------
  // The hook
  // ---------------------------------------------------------------------

  /**
    The two callbacks handed to `ensureECharts`: `mounted()`'s, which builds
    the chart and then registers the `new-tick` handler, and `updated()`'s,
    which disposes any chart and builds it again. Both read `initialData`
    when they run, not when they are queued.
  */
  datatype Callback = SetUp | Rebuild

  /**
    The hook's `pair`, `initialData` and `chart`, whether the `new-tick`
    handler is registered, whether `window.echarts` exists, and the callbacks
    of CDN scripts injected but not loaded yet, in injection order.
  */
  datatype Hook = Hook(
    pair: string,
    initialData: seq<Row>,
    chart: Option<Chart>,
    listening: bool,
    libraryLoaded: bool,
    pendingLoads: seq<Callback>)

  /**
    - `ScriptLoaded(i)`: the `onload` of the `i`-th pending script. Dynamically
      injected scripts load in no fixed order, so any pending one may be next.
    - `NewTick`: a `new-tick` event from the server.
    - `Updated`: `updated()` with the element's new `data-initial` rows.
    - `LibraryAppeared`: `window.echarts` is page-global, so another hook's
      script (or any other) may define it while this hook's own scripts are
      still pending.
  */
  datatype ChartEvent =
    | ScriptLoaded(index: nat)
    | NewTick(pair: string, price: Price, time: int)
    | Updated(newData: seq<Row>)
    | LibraryAppeared

  /**
    A chart, once there, is well formed and holds at most
    `max(100, |initialData|)` candles, and the handler is registered only
    after the chart was built. Scripts injected before the library loaded
    may still be pending after it has.
  */
  predicate Valid(h: Hook) {
    && (h.chart.Some? ==>
          WellFormed(h.chart.value) && |h.chart.value.candles| <= Max(MaxPoints, |h.initialData|))
    && (h.listening ==> h.chart.Some?)
  }

  /** Running a callback: both build the chart from the current rows; `SetUp` then starts listening. */
  function Fire(h: Hook, cb: Callback): (r: Hook)
    requires Valid(h)
    ensures r.chart == Some(InitChart(h.initialData))
    ensures r.listening == (h.listening || cb == SetUp)
    ensures r.pair == h.pair && r.initialData == h.initialData
    ensures r.libraryLoaded == h.libraryLoaded && r.pendingLoads == h.pendingLoads
    ensures Valid(r)
  {
    var built := h.(chart := Some(InitChart(h.initialData)));
    if cb == SetUp then built.(listening := true) else built
  }

  /** `ensureECharts`: run the callback now if the library is there, otherwise inject a script carrying it. */
  function EnsureECharts(h: Hook, cb: Callback): (r: Hook)
    requires Valid(h)
    ensures Valid(r)
    ensures h.libraryLoaded ==> r == Fire(h, cb)
    ensures !h.libraryLoaded ==> r == h.(pendingLoads := h.pendingLoads + [cb])
  {
    if h.libraryLoaded then Fire(h, cb) else h.(pendingLoads := h.pendingLoads + [cb])
  }

  /** `mounted()`: with the library already on the page the chart is built and listening at once. */
  function Mount(pair: string, initialData: seq<Row>, libraryPresent: bool): (h: Hook)
    ensures Valid(h) && h.pair == pair && h.initialData == initialData
    ensures h.libraryLoaded == libraryPresent
    ensures h.chart.Some? <==> libraryPresent
    ensures h.listening <==> libraryPresent
    ensures h.chart.Some? ==> |h.chart.value.candles| == |initialData|
    ensures h.pendingLoads == if libraryPresent then [] else [SetUp]
  {
    EnsureECharts(Hook(pair, initialData, None, false, libraryPresent, []), SetUp)
  }

  /**
    A script's `onload`: the library now exists and the script's callback
    runs. A load with no such pending script is not deliverable.
  */
  function OnScriptLoaded(h: Hook, i: nat): (r: Hook)
    requires Valid(h)
    ensures Valid(r)
    ensures i >= |h.pendingLoads| ==> r == h
    ensures i < |h.pendingLoads| ==>
      && r.libraryLoaded
      && r.chart == Some(InitChart(h.initialData))
      && r.listening == (h.listening || h.pendingLoads[i] == SetUp)
      && r.pendingLoads == h.pendingLoads[..i] + h.pendingLoads[i + 1..]
      && r.pair == h.pair && r.initialData == h.initialData
  {
    if i < |h.pendingLoads| then
      var cb := h.pendingLoads[i];
      var rest := h.pendingLoads[..i] + h.pendingLoads[i + 1..];
      Fire(h.(libraryLoaded := true, pendingLoads := rest), cb)
    else h
  }

  /**
    The `new-tick` handler: nothing happens before it is registered; once
    registered, ticks for other pairs, and ticks while there is no chart,
    are ignored.
  */
  function OnNewTick(h: Hook, pair: string, price: Price, time: int): (r: Hook)
    requires Valid(h)
    ensures Valid(r)
    ensures !h.listening || pair != h.pair || h.chart.None? ==> r == h
    ensures h.listening && pair == h.pair && h.chart.Some? ==>
      && r == h.(chart := r.chart) && r.chart.Some?
      && r.chart.value.dates == PushCapped(h.chart.value.dates, LocaleTime(time))
      && r.chart.value.candles == PushCapped(h.chart.value.candles, TickCandle(price))
  {
    if h.listening && pair == h.pair then
      match h.chart
      case None => h
      case Some(c) =>
        AppendTickIsPush(c, Tick(time, price));
        h.(chart := Some(AppendTick(c, time, price)))
    else h
  }

  /** The condition under which `updated()` rebuilds: new rows, and no chart yet or an empty one before. */
  predicate ReinitialisesOn(h: Hook, newData: seq<Row>) {
    |newData| > 0 && (h.chart.None? || |h.initialData| == 0)
  }

  /**
    `updated()`: adopt the new rows and ask `ensureECharts` for a rebuild,
    which happens at once when the library is there and when a script
    loads otherwise.
  */
  function OnUpdated(h: Hook, newData: seq<Row>): (r: Hook)
    requires Valid(h)
    ensures Valid(r)
    ensures !ReinitialisesOn(h, newData) ==> r == h
    ensures ReinitialisesOn(h, newData) ==>
      && r.initialData == newData && r.pair == h.pair && r.listening == h.listening
      && r.libraryLoaded == h.libraryLoaded
      && (h.libraryLoaded ==> r.chart == Some(InitChart(newData)) && r.pendingLoads == h.pendingLoads)
      && (!h.libraryLoaded ==> r.chart == h.chart && r.pendingLoads == h.pendingLoads + [Rebuild])
  {
    if ReinitialisesOn(h, newData) then EnsureECharts(h.(initialData := newData), Rebuild)
    else h
  }

  /**
    The library defined by someone else: no callback runs and no pending
    script is cancelled, but every later `ensureECharts` runs its callback
    at once.
  */
  function OnLibraryAppeared(h: Hook): (r: Hook)
    requires Valid(h)
    ensures Valid(r) && r.libraryLoaded
    ensures r.pair == h.pair && r.initialData == h.initialData && r.chart == h.chart
    ensures r.listening == h.listening && r.pendingLoads == h.pendingLoads
  {
    h.(libraryLoaded := true)
  }

  function Step(h: Hook, e: ChartEvent): (r: Hook)
    requires Valid(h)
    ensures Valid(r)
  {
    match e
    case ScriptLoaded(i) => OnScriptLoaded(h, i)
    case NewTick(pair, price, time) => OnNewTick(h, pair, price, time)
    case Updated(newData) => OnUpdated(h, newData)
    case LibraryAppeared => OnLibraryAppeared(h)
  }

  function Run(h: Hook, events: seq<ChartEvent>): (r: Hook)
    requires Valid(h)
    ensures Valid(r)
    decreases |events|
  {
    if |events| == 0 then h else Run(Step(h, events[0]), events[1..])
  }

  /** Once a chart was built from non-empty rows, `updated()` never rebuilds it. */
  lemma UpdatedIgnoredOnceBuilt(h: Hook, newData: seq<Row>)
    requires Valid(h) && h.chart.Some? && |h.initialData| > 0
    ensures OnUpdated(h, newData) == h
  {
  }

  /**
    Every script load discards the ticks appended so far: the chart is built
    again from the rows, whichever callback the script carries.
  */
  lemma ScriptLoadRebuildsFromRows(h: Hook, i: nat)
    requires Valid(h) && i < |h.pendingLoads|
    ensures Step(h, ScriptLoaded(i)).chart == Some(InitChart(h.initialData))
    ensures |Step(h, ScriptLoaded(i)).chart.value.candles| == |h.initialData|
  {
  }

  /** Rows adopted before the library loads, then the first script load: the chart listens, one script still pending. */
  lemma UpdateThenFirstLoad(pair: string, rows: seq<Row>)
    requires |rows| > 0
    ensures Step(Step(Mount(pair, [], false), Updated(rows)), ScriptLoaded(0))
      == Hook(pair, rows, Some(InitChart(rows)), true, true, [Rebuild])
  {
    var a := Step(Mount(pair, [], false), Updated(rows));
    assert a == Hook(pair, rows, None, false, false, [SetUp, Rebuild]);
    assert a.pendingLoads[..0] + a.pendingLoads[1..] == [Rebuild];
  }

  /**
    With the library defined elsewhere before this hook's script loads, the
    first `updated()` with rows builds the chart at once, and a second one is
    ignored because the chart now holds rows. Had the library not appeared,
    both rebuilds would have been queued and the later rows would win.
  */
  lemma LibraryFromElsewhereBuildsAtOnce(h: Hook, r1: seq<Row>, r2: seq<Row>)
    requires Valid(h) && h.chart.None? && |r1| > 0
    ensures var a := Step(Step(h, LibraryAppeared), Updated(r1));
      && a.chart == Some(InitChart(r1)) && a.initialData == r1
      && a.pendingLoads == h.pendingLoads
      && Step(a, Updated(r2)) == a
  {
  }

  /** Without the library, two `updated()` calls both queue a rebuild, and the rows of the later one are adopted. */
  lemma QueuedUpdatesLaterRowsWin(h: Hook, r1: seq<Row>, r2: seq<Row>)
    requires Valid(h) && h.chart.None? && !h.libraryLoaded && |r1| > 0 && |r2| > 0
    ensures var a := Step(Step(h, Updated(r1)), Updated(r2));
      && a.chart.None? && a.initialData == r2
      && a.pendingLoads == h.pendingLoads + [Rebuild, Rebuild]
  {
  }

  /** The last element of a capped push is the element pushed. */
  lemma PushCappedLast<T>(s: seq<T>, x: T)
    ensures |PushCapped(s, x)| > 0 && Last(PushCapped(s, x)) == x
  {
  }

  lemma {:induction false} RunThree(h: Hook, e0: ChartEvent, e1: ChartEvent, e2: ChartEvent)
    requires Valid(h)
    ensures Run(h, [e0, e1, e2]) == Step(Step(Step(h, e0), e1), e2)
  {
    var h1 := Step(h, e0);
    var h2 := Step(h1, e1);
    var h3 := Step(h2, e2);
    assert [e0, e1, e2][1..] == [e1, e2] && [e1, e2][1..] == [e2] && [e2][1..] == [];
    assert Run(h2, [e2]) == Run(h3, []) == h3;
    assert Run(h1, [e1, e2]) == Run(h2, [e2]);
    assert Run(h, [e0, e1, e2]) == Run(h1, [e1, e2]);
  }

  /**
    Rows that arrive through `updated()` before the library loads queue a
    second script. The first load builds the chart and starts listening; a
    tick is appended; the second load then rebuilds from the rows and the
    tick is gone.
  */
  lemma UpdateBeforeLoadDiscardsTicks(pair: string, rows: seq<Row>, price: Price, time: int)
    requires |rows| > 0
    ensures var h1 := Run(Mount(pair, [], false), [Updated(rows), ScriptLoaded(0), NewTick(pair, price, time)]);
      && h1.chart.Some? && h1.pendingLoads == [Rebuild]
      && |h1.chart.value.candles| > 0 && Last(h1.chart.value.candles) == TickCandle(price)
      && Step(h1, ScriptLoaded(0)).chart == Some(InitChart(rows))
  {
    var h0 := Mount(pair, [], false);
    RunThree(h0, Updated(rows), ScriptLoaded(0), NewTick(pair, price, time));
    UpdateThenFirstLoad(pair, rows);
    var b := Hook(pair, rows, Some(InitChart(rows)), true, true, [Rebuild]);
    var c := Step(b, NewTick(pair, price, time));
    PushCappedLast(InitChart(rows).candles, TickCandle(price));
    assert c.pendingLoads == [Rebuild] && c.initialData == rows;
  }

  /**
    Over any run the pair never changes, and a registered handler and a built
    chart stay (`dispose()` is always followed by `initChart()`), while labels
    and candles stay equal in number within the window bound.
  */
  lemma {:induction false} RunKeepsWindowBound(h: Hook, events: seq<ChartEvent>)
    requires Valid(h)
    ensures var r := Run(h, events);
      && r.pair == h.pair
      && (h.listening ==> r.listening)
      && (h.chart.Some? ==> r.chart.Some?)
      && (r.chart.Some? ==> |r.chart.value.dates| == |r.chart.value.candles| <= Max(MaxPoints, |r.initialData|))
    decreases |events|
  {
    if |events| != 0 {
      RunKeepsWindowBound(Step(h, events[0]), events[1..]);
    }
  }
}

=== FILE: hook_variants.dfy ===
/**
  How the two WebAuthn hooks relate: the app.js variant is the hooks
  directory's variant with the retry cap and the cooldown taken out, so the
  two behave alike until the first early release.
*/
module HookVariants {
  import opened ScanEvents
  import Full = WebAuthnHook
  import App = AppWebAuthnHook

  /** The app.js state a full-hook state corresponds to: drop the retry count and the cooldown. */
  function Forget(h: Full.Hook): App.Hook {
    App.Hook(h.mounted, h.scanning, h.progress, h.intervalArmed, h.pendingCeremonies)
  }

  /**
    Before any early release, every event has the same effect in both
    variants: the same pushes, the same ceremony requests, and matching
    next states. This includes the first release itself, where both
    report `retry_count: 1`.
  */
  lemma FirstAttemptAgrees(h: Full.Hook, e: Event)
    requires Full.Valid(h) && h.retryCount == 0 && !h.cooldownActive
    ensures var f, a := Full.Step(h, e), App.Step(Forget(h), e);
      && f.pushed == a.pushed && f.requested == a.requested
      && Forget(f.next) == a.next
  {
  }
}

=== FILE: scan_events.dfy ===
/**
  The single-threaded event loop both WebAuthn hooks run in. Every listener
  and timer callback runs to completion before the next event; the model
  turns each into one `Event` and the hooks into step functions.
*/
module ScanEvents {
  import opened Ceremony
  import opened Seqs

  /** The listener filter of `pointerdown`: touch, or the primary mouse button. */
  predicate StartsScan(pointerType: string, button: int) {
    pointerType == "touch" || button == 0
  }

  datatype Event =
    | PointerDown(pointerType: string, button: int)
    | PointerUp
    | PointerLeave
    | IntervalTick(ctx: Context)      // one firing of the 20 ms `setInterval` callback
    | CooldownExpired                 // the 2000 ms `setTimeout` callback
    | CeremonySettled(outcome: Outcome)
    | Destroyed

  /** One step: the hook's next state, the events pushed, the ceremonies requested. */
  datatype Transition<H> = Transition(next: H, pushed: seq<Push>, requested: seq<CreationRequest>)

  /** `n` firings of the interval, each finding the same surroundings. */
  function Ticks(n: nat, ctx: Context): (evs: seq<Event>)
    ensures |evs| == n && forall i :: 0 <= i < n ==> evs[i] == IntervalTick(ctx)
  {
    seq(n, _ => IntervalTick(ctx))
  }

  /** The number of `biometric_reset {retry_count}` events in a push log. */
  function RetryResets(pushed: seq<Push>): (n: nat)
    ensures n <= |pushed|
  {
    if |pushed| == 0 then 0
    else (if pushed[0].BiometricResetRetry? then 1 else 0) + RetryResets(pushed[1..])
  }

  lemma {:induction false} RetryResetsConcat(a: seq<Push>, b: seq<Push>)
    ensures RetryResets(a + b) == RetryResets(a) + RetryResets(b)
    decreases |a|
  {
    if |a| != 0 {
      assert (a + b)[1..] == a[1..] + b;
      RetryResetsConcat(a[1..], b);
    } else {
      assert a + b == b;
    }
  }

  /** Feeds events to a hook one at a time; pushes and requests are concatenated in order. */
  function Run<H>(step: (H, Event) -> Transition<H>, h: H, events: seq<Event>): (t: Transition<H>)
    decreases |events|
  {
    if |events| == 0 then Transition(h, [], [])
    else
      var first := step(h, events[0]);
      var rest := Run(step, first.next, events[1..]);
      Transition(rest.next, first.pushed + rest.pushed, first.requested + rest.requested)
  }

  /** Running `a + b` is running `a`, then `b` from where `a` left off. */
  lemma {:induction false} RunConcat<H>(step: (H, Event) -> Transition<H>, h: H, a: seq<Event>, b: seq<Event>)
    ensures var ta := Run(step, h, a); var tb := Run(step, ta.next, b);
      Run(step, h, a + b) == Transition(tb.next, ta.pushed + tb.pushed, ta.requested + tb.requested)
    decreases |a|
  {
    if |a| == 0 {
      assert a + b == b;
    } else {
      assert (a + b)[0] == a[0] && (a + b)[1..] == a[1..] + b;
      var first := step(h, a[0]);
      RunConcat(step, first.next, a[1..], b);
      var ta := Run(step, first.next, a[1..]);
      var tb := Run(step, ta.next, b);
      ConcatAssoc(first.pushed, ta.pushed, tb.pushed);
      ConcatAssoc(first.requested, ta.requested, tb.requested);
    }
  }

  /** An invariant every single step keeps is kept by every run. */
  lemma {:induction false} RunPreserves<H>(
    step: (H, Event) -> Transition<H>, inv: H -> bool, h: H, events: seq<Event>)
    requires forall g, e :: inv(g) ==> inv(step(g, e).next)
    requires inv(h)
    ensures inv(Run(step, h, events).next)
    decreases |events|
  {
    if |events| != 0 {
      RunPreserves(step, inv, step(h, events[0]).next, events[1..]);
    }
  }
}

=== FILE: seqs.dfy ===
/** Facts about sequences that several models lean on. */
module Seqs {

  lemma ConcatAssoc<T>(x: seq<T>, y: seq<T>, z: seq<T>)
    ensures x + (y + z) == (x + y) + z
  {
  }

  lemma SplitThree<T>(s: seq<T>)
    requires |s| >= 3
    ensures s == [s[0], s[1], s[2]] + s[3..]
  {
  }
}

=== FILE: webauthn_hook.dfy ===
/**
  `WebAuthnHook` of assets/js/hooks/webauthn.js:58-278, the press-and-hold
  biometric gesture with a retry cap and a cooldown.

  A scan starts on a qualifying `pointerdown`, advances by 2 on every firing
  of a 20 ms interval, and at 100 finishes and begins the credential
  ceremony. Releasing early aborts the scan, counts a retry, and blocks new
  scans until a 2000 ms cooldown expires; after `MaxRetries` aborts no scan
  can start again. Timers are modelled by whether they are armed, not by
  their durations.
*/
module WebAuthnHook {
  import opened Ceremony
  import opened ScanEvents

  const MaxRetries: nat := 2
  const ProgressStep: int := 2
  const FullProgress: int := 100

  /**
    The hook's fields (`scanning`, `progress`, `retryCount`, `cooldownActive`),
    whether its two timers are armed, whether the element is still mounted,
    and how many ceremonies are awaiting the platform.
  */
  datatype Hook = Hook(
    mounted: bool,
    scanning: bool,
    progress: int,
    retryCount: nat,
    cooldownActive: bool,
    intervalArmed: bool,
    cooldownArmed: bool,
    pendingCeremonies: nat)

  /** The state `mounted()` sets up. */
  function Mount(): (h: Hook)
    ensures Valid(h) && h.mounted && !h.scanning && h.retryCount == 0
    ensures h.progress == 0 && !h.cooldownActive && h.pendingCeremonies == 0
  {
    Hook(true, false, 0, 0, false, false, false, 0)
  }

  /** What holds of the hook between any two events. */
  predicate Valid(h: Hook) {
    && 0 <= h.progress <= FullProgress && h.progress % ProgressStep == 0
    && h.retryCount <= MaxRetries
    && (h.scanning ==> h.progress < FullProgress && h.retryCount < MaxRetries && !h.cooldownActive)
    && (h.mounted ==> (h.intervalArmed <==> h.scanning) && (h.cooldownArmed <==> h.cooldownActive))
    && (!h.mounted ==> !h.intervalArmed && !h.cooldownArmed)
  }

  /** Whether an event can reach the hook: listeners need the element, callbacks an armed timer. */
  predicate Deliverable(h: Hook, e: Event) {
    match e
    case PointerDown(_, _) => h.mounted
    case PointerUp => h.mounted
    case PointerLeave => h.mounted
    case Destroyed => h.mounted
    case IntervalTick(_) => h.intervalArmed
    case CooldownExpired => h.cooldownArmed
    case CeremonySettled(_) => h.pendingCeremonies > 0
  }

  function Unchanged(h: Hook): Transition<Hook> {
    Transition(h, [], [])
  }

  /** `startScan`: refused while scanning, during the cooldown, or once retries are used up. */
  function StartScan(h: Hook): (t: Transition<Hook>)
    ensures t.pushed != [] <==> !h.scanning && !h.cooldownActive && h.retryCount < MaxRetries
    ensures t.pushed == [] ==> t == Unchanged(h)
    ensures t.pushed != [] ==>
      && t.pushed == [BiometricStart] && t.requested == []
      && t.next == h.(scanning := true, progress := 0, intervalArmed := true)
  {
    if h.scanning || h.cooldownActive || h.retryCount >= MaxRetries then Unchanged(h)
    else Transition(h.(scanning := true, progress := 0, intervalArmed := true), [BiometricStart], [])
  }

  /**
    `stopScan`: an abort only while a scan is under way and short of 100.
    `progress` keeps its value; only the CSS variable goes back to 0.
  */
  function StopScan(h: Hook): (t: Transition<Hook>)
    ensures !(h.scanning && h.progress < FullProgress) ==> t == Unchanged(h)
    ensures h.scanning && h.progress < FullProgress ==>
      && t.next == h.(scanning := false, intervalArmed := false, retryCount := h.retryCount + 1,
                      cooldownActive := true, cooldownArmed := true)
      && t.pushed == [BiometricResetRetry(h.retryCount + 1)] && t.requested == []
  {
    if !h.scanning then Unchanged(h)
    else if h.progress >= FullProgress then Unchanged(h)
    else
      var retries := h.retryCount + 1;
      Transition(
        h.(scanning := false, intervalArmed := false, retryCount := retries,
           cooldownActive := true, cooldownArmed := true),
        [BiometricResetRetry(retries)], [])
  }

  /** `finishScan`: stop the interval, then begin the ceremony; the retry policy is untouched. */
  function FinishScan(h: Hook, ctx: Context): (t: Transition<Hook>)
    ensures !t.next.scanning && !t.next.intervalArmed
    ensures t.next.retryCount == h.retryCount && t.next.cooldownActive == h.cooldownActive
    ensures t.next.progress == h.progress
    ensures t.next.pendingCeremonies == h.pendingCeremonies + |t.requested|
    ensures t.next.(scanning := h.scanning, intervalArmed := h.intervalArmed,
      pendingCeremonies := h.pendingCeremonies) == h
    ensures BeginCeremony(ctx).NoChallenge? ==> t.pushed == [] && t.requested == []
    ensures BeginCeremony(ctx).Failed? ==>
      t.pushed == [BiometricResetError(InvalidChallenge)] && t.requested == []
    ensures BeginCeremony(ctx).Requested? ==>
      && t.pushed == [] && t.requested == [BeginCeremony(ctx).request]
      && t.next.pendingCeremonies == h.pendingCeremonies + 1
  {
    var stopped := h.(scanning := false, intervalArmed := false);
    match BeginCeremony(ctx)
    case NoChallenge => Unchanged(stopped)
    case Failed(fault) => Transition(stopped, [BiometricResetError(fault)], [])
    case Requested(request) =>
      Transition(stopped.(pendingCeremonies := h.pendingCeremonies + 1), [], [request])
  }

  /** One firing of the interval: add 2, and at 100 clamp and finish. */
  function Tick(h: Hook, ctx: Context): (t: Transition<Hook>)
    ensures h.progress + ProgressStep < FullProgress ==>
      t == Unchanged(h.(progress := h.progress + ProgressStep))
    ensures h.progress + ProgressStep >= FullProgress ==>
      t == FinishScan(h.(progress := FullProgress), ctx)
  {
    var p := h.progress + ProgressStep;
    if p >= FullProgress then FinishScan(h.(progress := FullProgress), ctx)
    else Unchanged(h.(progress := p))
  }

  /** One event of the loop; an event that cannot reach the hook changes nothing. */
  function Step(h: Hook, e: Event): (t: Transition<Hook>)
  {
    if !Deliverable(h, e) then Unchanged(h)
    else
      match e
      case PointerDown(pointerType, button) =>
        if StartsScan(pointerType, button) then StartScan(h) else Unchanged(h)
      case PointerUp => StopScan(h)
      case PointerLeave => StopScan(h)
      case IntervalTick(ctx) => Tick(h, ctx)
      case CooldownExpired => Unchanged(h.(cooldownActive := false, cooldownArmed := false))
      case CeremonySettled(outcome) =>
        Transition(h.(pendingCeremonies := h.pendingCeremonies - 1), [Settle(outcome)], [])
      case Destroyed =>
        Unchanged(h.(mounted := false, intervalArmed := false, cooldownArmed := false))
  }

  /** A sequence of events, their pushes and requests concatenated in order. */
  function RunHook(h: Hook, events: seq<Event>): Transition<Hook> {
    Run(Step, h, events)
  }

  // ---------------------------------------------------------------------
  // Properties
  // ---------------------------------------------------------------------

  /** Every event keeps the invariant: progress in 0..100, at most 2 retries, timers match flags. */
  /** A firing of the interval, the one step that can finish a scan, keeps the invariant. */
  lemma TickPreservesValid(h: Hook, ctx: Context)
    requires Valid(h) && h.intervalArmed
    ensures Valid(Tick(h, ctx).next)
  {
    if h.progress + ProgressStep >= FullProgress {
      var f := FinishScan(h.(progress := FullProgress), ctx);
      assert f.next.mounted == h.mounted && f.next.cooldownArmed == h.cooldownArmed;
    }
  }

  lemma StepPreservesValid(h: Hook, e: Event)
    requires Valid(h)
    ensures Valid(Step(h, e).next)
  {
    if e.IntervalTick? && Deliverable(h, e) {
      TickPreservesValid(h, e.ctx);
    }
  }

  lemma RunPreservesValid(h: Hook, events: seq<Event>)
    requires Valid(h)
    ensures Valid(RunHook(h, events).next)
  {
    forall g, e | Valid(g) ensures Valid(Step(g, e).next) {
      StepPreservesValid(g, e);
    }
    RunPreserves(Step, Valid, h, events);
  }

  /**
    After `destroyed` no listener and no timer reaches the hook: the only
    thing any later events can do is report a ceremony still in flight, and
    no new ceremony is requested.
  */
  lemma {:induction false} AfterDestroyedOnlySettlements(h: Hook, events: seq<Event>)
    requires Valid(h) && !h.mounted
    ensures var t := RunHook(h, events);
      && t.requested == []
      && forall i :: 0 <= i < |t.pushed| ==> IsSettlementReport(t.pushed[i])
    decreases |events|
  {
    if |events| != 0 {
      StepPreservesValid(h, events[0]);
      AfterDestroyedOnlySettlements(Step(h, events[0]).next, events[1..]);
    }
  }

  /** From mounting on, whatever happens, `0 <= progress <= 100` and `retryCount <= 2`. */
  lemma Bounds(events: seq<Event>)
    ensures var h := RunHook(Mount(), events).next;
      0 <= h.progress <= FullProgress && h.retryCount <= MaxRetries
  {
    RunPreservesValid(Mount(), events);
  }

  /** The `progress >= 100` guard of `stopScan` never fires: a running scan is always short of 100. */
  lemma ReleaseDuringScanAborts(h: Hook, e: Event)
    requires Valid(h) && h.mounted && h.scanning && (e == PointerUp || e == PointerLeave)
    ensures var t := Step(h, e);
      && t.pushed == [BiometricResetRetry(h.retryCount + 1)]
      && t.next.retryCount == h.retryCount + 1 && t.next.retryCount <= MaxRetries
      && t.next.cooldownActive && !t.next.scanning && !t.next.intervalArmed
      && t.next.progress == h.progress
  {
  }

  /** `retryCount` changes only through an early release, by one, reported with its new value. */
  lemma RetryCountChangesOnlyOnAbort(h: Hook, e: Event)
    requires Valid(h)
    ensures var t := Step(h, e);
      t.next.retryCount != h.retryCount ==>
        && (e == PointerUp || e == PointerLeave)
        && t.next.retryCount == h.retryCount + 1
        && t.pushed == [BiometricResetRetry(t.next.retryCount)]
  {
  }

  /** Over any run, `retryCount` grows by exactly the number of `biometric_reset {retry_count}` pushes. */
  lemma {:induction false} RetryCountMatchesResets(h: Hook, events: seq<Event>)
    requires Valid(h)
    ensures var t := RunHook(h, events);
      t.next.retryCount == h.retryCount + RetryResets(t.pushed)
    decreases |events|
  {
    if |events| != 0 {
      var first := Step(h, events[0]);
      StepPreservesValid(h, events[0]);
      RetryCountChangesOnlyOnAbort(h, events[0]);
      assert RetryResets(first.pushed) == first.next.retryCount - h.retryCount;
      RetryCountMatchesResets(first.next, events[1..]);
      RetryResetsConcat(first.pushed, RunHook(first.next, events[1..]).pushed);
    }
  }

  /** A qualifying press starts a scan exactly when not scanning, not cooling down and retries remain. */
  lemma PressStartsScan(h: Hook, pointerType: string, button: int)
    requires Valid(h) && h.mounted && StartsScan(pointerType, button)
    ensures var t := Step(h, PointerDown(pointerType, button));
      && (t.pushed == [BiometricStart] <==>
          !h.scanning && !h.cooldownActive && h.retryCount < MaxRetries)
      && (t.pushed == [BiometricStart] ==> t.next.scanning && t.next.progress == 0)
      && (t.pushed != [BiometricStart] ==> t == Unchanged(h))
  {
  }

  /** Once both retries are used, no event ever starts a scan again or changes the count. */
  lemma {:induction false} ExhaustedRetriesArePermanent(h: Hook, events: seq<Event>)
    requires Valid(h) && h.retryCount == MaxRetries
    ensures var t := RunHook(h, events);
      && t.next.retryCount == MaxRetries && !t.next.scanning
      && BiometricStart !in t.pushed
    decreases |events|
  {
    if |events| != 0 {
      var first := Step(h, events[0]);
      StepPreservesValid(h, events[0]);
      assert BiometricStart !in first.pushed;
      ExhaustedRetriesArePermanent(first.next, events[1..]);
    }
  }

  /** During the cooldown a press is refused; once it expires the same press starts a scan. */
  lemma CooldownDelaysStart(h: Hook, pointerType: string, button: int)
    requires Valid(h) && h.mounted && h.cooldownActive && h.retryCount < MaxRetries
    requires StartsScan(pointerType, button)
    ensures Step(h, PointerDown(pointerType, button)) == Unchanged(h)
    ensures var cooled := Step(h, CooldownExpired).next;
      Step(cooled, PointerDown(pointerType, button)).pushed == [BiometricStart]
  {
  }

  /**
    When the cooldown timeout fires, `cooldownActive` becomes false and
    nothing else changes: no push, no request, every other field as it was.
  */
  lemma CooldownExpiryOnlyClearsCooldown(h: Hook)
    requires h.cooldownArmed
    ensures var t := Step(h, CooldownExpired);
      && !t.next.cooldownActive && !t.next.cooldownArmed
      && t.pushed == [] && t.requested == []
      && t.next.(cooldownActive := h.cooldownActive, cooldownArmed := h.cooldownArmed) == h
  {
  }

  /** While a scan runs, `progress` never decreases; a still-running scan's progress moves only on ticks. */
  lemma ProgressMonotoneWhileScanning(h: Hook, e: Event)
    requires Valid(h) && h.scanning
    ensures var n := Step(h, e).next;
      n.scanning ==> n.progress >= h.progress && (n.progress != h.progress ==> e.IntervalTick?)
  {
  }

  /** Short of 100, ticks only advance `progress`, 2 at a time, pushing nothing. */
  lemma {:induction false} TicksAdvance(h: Hook, n: nat, ctx: Context)
    requires Valid(h) && h.mounted && h.scanning && h.progress + ProgressStep * n < FullProgress
    ensures RunHook(h, Ticks(n, ctx)) == Unchanged(h.(progress := h.progress + ProgressStep * n))
    decreases n
  {
    if n != 0 {
      var h1 := h.(progress := h.progress + ProgressStep);
      assert Step(h, IntervalTick(ctx)) == Unchanged(h1);
      assert Ticks(n, ctx)[1..] == Ticks(n - 1, ctx);
      TicksAdvance(h1, n - 1, ctx);
    }
  }

  /**
    After a start, 49 ticks leave the scan running at 98 and the 50th
    reaches 100, stops the interval and begins the ceremony.
  */
  lemma FiftyTicksFinish(h: Hook, pointerType: string, button: int, ctx: Context)
    requires Valid(h) && h.mounted && StartsScan(pointerType, button)
    requires !h.scanning && !h.cooldownActive && h.retryCount < MaxRetries
    ensures var started := Step(h, PointerDown(pointerType, button)).next;
      && RunHook(started, Ticks(49, ctx)) == Unchanged(started.(progress := 98))
      && var done := RunHook(started, Ticks(50, ctx));
         && done.next.progress == FullProgress && !done.next.scanning && !done.next.intervalArmed
         && done.next.retryCount == h.retryCount
         && done == FinishScan(started.(progress := FullProgress), ctx)
  {
    var started := Step(h, PointerDown(pointerType, button)).next;
    TicksAdvance(started, 49, ctx);
    var at98 := started.(progress := 98);
    assert Ticks(50, ctx) == Ticks(49, ctx) + [IntervalTick(ctx)];
    RunConcat(Step, started, Ticks(49, ctx), [IntervalTick(ctx)]);
    assert at98.(progress := FullProgress) == started.(progress := FullProgress);
  }

  /** A settled ceremony pushes its report and leaves the retry count and cooldown alone. */
  lemma SettlingKeepsPolicy(h: Hook, outcome: Outcome)
    requires h.pendingCeremonies > 0
    ensures var t := Step(h, CeremonySettled(outcome));
      && t.next.retryCount == h.retryCount && t.next.cooldownActive == h.cooldownActive
      && t.pushed == [Settle(outcome)]
      && (outcome.Rejected? ==> t.pushed == [BiometricResetError(CeremonyError(outcome.message))])
  {
    assert Deliverable(h, CeremonySettled(outcome));
  }
}

=== FILE: webauthn_utils.dfy ===
/**
  `WebAuthnUtils`, the binary/text helpers of the WebAuthn hooks
  (assets/js/hooks/webauthn.js:15-39, repeated verbatim at assets/js/app.js:28-52).

  - `ArrayBufferToBase64Url` is base64url, the alphabet of section 5 of RFC 4648,
    with the padding omitted as section 3.2 of RFC 4648 allows: `btoa`, then
    `+` to `-`, `/` to `_`, and every `=` removed.
  - `Base64UrlToBuffer` swaps the alphabet back, pads with `=` to a multiple
    of 4 and hands the result to `atob`, whose failure is returned as
    `InvalidCharacterError`.
*/
module WebAuthnUtils {
  import opened Base64

  /** `s.replace(/from/g, to)`: every occurrence of one character replaced by another. */
  function ReplaceAll(s: string, from: char, to: char): (r: string)
    ensures |r| == |s|
    ensures forall i :: 0 <= i < |s| ==> r[i] == (if s[i] == from then to else s[i])
  {
    seq(|s|, i requires 0 <= i < |s| => if s[i] == from then to else s[i])
  }

  /** `s.replace(/c/g, "")`: every occurrence of one character deleted, the rest kept in order. */
  function RemoveAll(s: string, c: char): (r: string)
    ensures c !in r && |r| <= |s|
    ensures c !in s ==> r == s
  {
    if |s| == 0 then []
    else (if s[0] == c then [] else [s[0]]) + RemoveAll(s[1..], c)
  }

  /** Characters of the alphabet of section 5 of RFC 4648. */
  predicate IsBase64UrlChar(c: char) {
    IsAsciiAlphanumeric(c) || c == '-' || c == '_'
  }

  /** Characters `Base64UrlToBuffer` accepts: both alphabets, since `+` and `/` pass the swap unchanged. */
  predicate IsAcceptedChar(c: char) {
    IsBase64UrlChar(c) || c == '+' || c == '/'
  }

  function ToUrlAlphabet(s: string): string {
    ReplaceAll(ReplaceAll(s, '+', '-'), '/', '_')
  }

  function FromUrlAlphabet(s: string): string {
    ReplaceAll(ReplaceAll(s, '-', '+'), '_', '/')
  }

  /** Removing every `=` from the url form of `btoa`'s output leaves the url form of the groups. */
  lemma StripBtoaPadding(b: seq<Byte>)
    ensures RemoveAll(ToUrlAlphabet(Btoa(b)), '=') == ToUrlAlphabet(EncodeGroups(b))
  {
    var g := EncodeGroups(b);
    var pad := if |b| % 3 == 1 then "==" else if |b| % 3 == 2 then "=" else "";
    assert ToUrlAlphabet(Btoa(b)) == ToUrlAlphabet(g) + pad;
    RemoveAllConcat(ToUrlAlphabet(g), pad, '=');
    assert RemoveAll(pad, '=') == [];
  }

  lemma {:induction false} RemoveAllConcat(s: string, t: string, c: char)
    requires c !in s && forall i :: 0 <= i < |t| ==> t[i] == c
    ensures RemoveAll(s + t, c) == s
    decreases |s| + |t|
  {
    if |s| == 0 {
      if |t| != 0 {
        assert s + t == t && s + t[1..] == t[1..];
        RemoveAllConcat(s, t[1..], c);
      }
    } else {
      assert (s + t)[1..] == s[1..] + t;
      RemoveAllConcat(s[1..], t, c);
    }
  }

  /**
    The shape of unpadded base64url text for `n` bytes: ceil(4n/3)
    characters, all from the url-safe alphabet, no `=`.
  */
  predicate IsUnpaddedBase64Url(s: string, n: nat) {
    |s| == (4 * n + 2) / 3 && forall i :: 0 <= i < |s| ==> IsBase64UrlChar(s[i])
  }

  /** `arrayBufferToBase64URL`: unpadded base64url of the buffer's bytes. */
  function ArrayBufferToBase64Url(buffer: seq<Byte>): (r: string)
    ensures IsUnpaddedBase64Url(r, |buffer|)
  {
    StripBtoaPadding(buffer);
    RemoveAll(ToUrlAlphabet(Btoa(buffer)), '=')
  }

  /** `base64.padEnd(base64.length + padLen, "=")` with `padLen = (4 - base64.length % 4) % 4`. */
  function PadEnd(s: string): (r: string)
    ensures |r| % 4 == 0 && |r| == |s| + [0, 3, 2, 1][|s| % 4]
    ensures r[..|s|] == s && forall i :: |s| <= i < |r| ==> r[i] == '='
  {
    var padLen := (4 - |s| % 4) % 4;
    assert padLen == [0, 3, 2, 1][|s| % 4];
    s + seq(padLen, _ => '=')
  }

  /** `base64URLToBuffer`: the bytes `atob` returns, or the exception it throws. */
  function Base64UrlToBuffer(s: string): (r: Decoded)
  {
    Atob(PadEnd(FromUrlAlphabet(s)))
  }

  predicate IsUnpadded(s: string) {
    forall i :: 0 <= i < |s| ==> !IsAsciiWhitespace(s[i]) && s[i] != '='
  }

  /** `atob`'s padding removal undoes `PadEnd`, except that a length of 1 modulo 4 keeps one `=`. */
  lemma DropPadEnd(u: string)
    requires IsUnpadded(u)
    ensures DropPadding(PadEnd(u)) == if |u| % 4 == 1 then u + "=" else u
  {
    var t := PadEnd(u);
    assert |u| == 0 || t[|u| - 1] != '=';
    if |u| % 4 == 1 {
      assert |t| == |u| + 3 && t[..|u| + 1] == u + "=";
    } else if |u| % 4 == 0 {
      assert |t| == |u| && t == u;
    } else if |u| % 4 == 2 {
      assert |t| == |u| + 2 && t[..|u|] == u;
    } else {
      assert |t| == |u| + 1 && t[..|u|] == u;
    }
  }

  /** `PadEnd` leaves no whitespace for `atob` to strip. */
  lemma PadEndHasNoWhitespace(u: string)
    requires IsUnpadded(u)
    ensures forall i :: 0 <= i < |PadEnd(u)| ==> !IsAsciiWhitespace(PadEnd(u)[i])
  {
  }

  /** A length of 1 modulo 4 leaves a `=` inside what `atob` judges, so it throws. */
  lemma AtobOfPadEndOneModFour(u: string)
    requires IsUnpadded(u) && |u| % 4 == 1
    ensures Atob(PadEnd(u)) == InvalidCharacterError
  {
    var t := PadEnd(u);
    PadEndHasNoWhitespace(u);
    AtobPadded(t);
    DropPadEnd(u);
    var v := u + "=";
    assert v[|u|] == '=';
    assert !AllBase64(v);
  }

  /** Any other length: `atob` sees `u` itself. */
  lemma AtobOfPadEndOtherwise(u: string)
    requires IsUnpadded(u) && |u| % 4 != 1
    ensures Atob(PadEnd(u)) == if AllBase64(u) then Bytes(DecodeGroups(u)) else InvalidCharacterError
  {
    var t := PadEnd(u);
    PadEndHasNoWhitespace(u);
    AtobPadded(t);
    DropPadEnd(u);
  }

  /** After `PadEnd`, `atob` sees exactly the unpadded characters again. */
  lemma AtobOfPadEnd(u: string)
    requires IsUnpadded(u)
    ensures Atob(PadEnd(u)) ==
      if |u| % 4 == 1 || !AllBase64(u) then InvalidCharacterError else Bytes(DecodeGroups(u))
  {
    if |u| % 4 == 1 {
      AtobOfPadEndOneModFour(u);
    } else {
      AtobOfPadEndOtherwise(u);
    }
  }

  /** The padding `PadEnd` restores is the padding `btoa` wrote. */
  lemma PadEndRestoresBtoa(b: seq<Byte>)
    ensures PadEnd(EncodeGroups(b)) == Btoa(b)
  {
    var g := EncodeGroups(b);
    UnpaddedLength(|b|);
    assert |PadEnd(g)| == |Btoa(b)|;
  }

  lemma UrlAlphabetRoundTrip(s: string)
    requires AllBase64(s)
    ensures FromUrlAlphabet(ToUrlAlphabet(s)) == s
  {
  }

  /** Decoding the encoding of any byte string gives the same bytes back. */
  lemma RoundTrip(buffer: seq<Byte>)
    ensures Base64UrlToBuffer(ArrayBufferToBase64Url(buffer)) == Bytes(buffer)
  {
    var g := EncodeGroups(buffer);
    StripBtoaPadding(buffer);
    UrlAlphabetRoundTrip(g);
    PadEndRestoresBtoa(buffer);
    BtoaAtobRoundTrip(buffer);
  }

  /**
    Exactly which unpadded, whitespace-free strings decode: those whose length
    is not 1 modulo 4 and whose characters come from either alphabet. The
    decoded buffer holds 3 bytes for every 4 characters, rounded down.
  */
  lemma DecodeAcceptance(s: string)
    requires IsUnpadded(s)
    ensures Base64UrlToBuffer(s).Bytes? <==>
      |s| % 4 != 1 && forall i :: 0 <= i < |s| ==> IsAcceptedChar(s[i])
    ensures Base64UrlToBuffer(s).Bytes? ==> |Base64UrlToBuffer(s).value| == 3 * |s| / 4
  {
    var u := FromUrlAlphabet(s);
    assert IsUnpadded(u);
    AtobOfPadEnd(u);
    assert AllBase64(u) <==> forall i :: 0 <= i < |s| ==> IsAcceptedChar(s[i]) by {
      assert forall i :: 0 <= i < |s| ==> (IsBase64Char(u[i]) <==> IsAcceptedChar(s[i]));
    }
  }

  /**
    A length of 1 modulo 4 is always rejected, whatever the characters:
    `padEnd` appends three `=`, and `atob` never drops more than two.
  */
  lemma RejectsOneModFour(s: string)
    requires |s| % 4 == 1
    ensures Base64UrlToBuffer(s) == InvalidCharacterError
  {
    var u := FromUrlAlphabet(s);
    assert PadEnd(u) == u + "===";
    AtobRejectsTriplePad(u);
  }
}

=== FILE: wrappers.dfy ===
/** An optional value, shared by the hook models. */
module Wrappers {

  /** A value that may be absent: a missing DOM attribute, a chart not yet created. */
  datatype Option<+T> = None | Some(value: T)
}
